=== FILE: README.md ===
# TUFF Style Lens — a verified model of its interactive components

TUFF Style Lens is a fashion social app written as a React single-page
application. This project models the client-side logic of nine of its
components and pages in Dafny and proves properties about that logic:

- **ChatBot** — the floating assistant. It holds an open flag, an input
  line, a transcript that starts with a greeting, and a loading flag. A
  submit appends the user's line. A timer later appends a canned reply.
  The reply is chosen by the first keyword group found in the lower-cased
  line.
- **FashionEducationPage** — a five-card "swipe to learn your style"
  deck. It records liked and disliked item ids and can step back. It
  offers a restart on the last card. It shows a progress bar and a
  rotating tip.
- **FeedPost** — a post card with like, super-like (only when the
  author's rating is at least 80), save and comment toggles. It shows a
  counter line that adds the viewer's own reactions.
- **SQCalculatorPage** — the three-step "Style Quotient" flow. Step 1 is
  information, step 2 is the analysis, step 3 is the results. It uses a
  mock analysis that completes after a delay, plus score colour and
  label bands.
- **ScoreDisplay** — the colour band of a score relative to its maximum
  (default 10).
- **LookbookPage** — the saved outfits. They are sorted newest first or
  by score (a stable sort), with a detail dialog for one outfit.
- **MessagesPage** — the conversation list, filtered by a case-insensitive
  name search, and the routes it navigates to.
- **ShareModal** — the friend search, the share link, the caption preview
  and the "no post, nothing rendered" rule.
- **NewPostModal** — the new-post form. It accepts only `image/*` files,
  refuses to submit without an image, and resets after posting.

Three helper modules model what these components share:

- `Wrappers` holds `Option`.
- `Seqs` holds the order-preserving `filter` and subsequences.
- `Text` holds JavaScript `trim`, `toLowerCase`, `includes` and
  `startsWith`.

Components whose handlers update React state are Dafny classes whose
handlers have `modifies this`. The two search pages (messages and the
share dialog) keep only a search query in state; they are modelled as
pure functions of that query. In the chat, the swipe deck, the feed post, the SQ page
and the new-post form, the class has a `State()` view and every handler's
postcondition ties the new state to a pure transition function of the
old state, for example `State() == Swiped(old(State()), liked)`. The
multi-step properties are lemmas about those functions: invariants kept
by every event sequence, undo, idempotence and precedence. The lookbook
page's two fields are plain setters, so its handlers state the new field
values directly. In the page-level event functions (`Step`), a button
that the page does not render, or renders disabled, is an event that
leaves the state unchanged: the chat's form events, for example, only act
while the panel is open and no reply is loading. The class methods model
the handlers themselves and accept a call in any state.

Deferred `setTimeout` callbacks are modelled differently in each
component:

- In the chat, the submit and the reply timer are separate events. A
  FIFO `pending` queue holds the lines whose replies are still
  outstanding.
- In the SQ page, the analysis timer is its own event, `AnalysisDone`.
- In the swipe deck, the 300 ms callback is folded into the swipe.

## Model

| member | source | states |
|---|---|---|
| Text.TrimStart | src/components/ChatBot.tsx:36 | the result is a suffix of the input that does not start with ECMAScript whitespace, and every character removed is whitespace |
| Text.TrimEnd | src/components/ChatBot.tsx:36 | the result is a prefix of the input that does not end with ECMAScript whitespace, and every character removed is whitespace |
| Text.BlankIffAllWhitespace | src/components/ChatBot.tsx:36 | `!s.trim()` holds exactly when every character of `s` is whitespace |
| Text.LowerChar | src/pages/MessagesPage.tsx:90 | an ASCII upper-case letter maps to the lower-case letter 32 code points above it, and every other character is unchanged |
| Text.ToLower | src/pages/MessagesPage.tsx:90 | the result has the same length, is lowered position by position, and has no upper-case ASCII letter left |
| Text.ToLowerIdempotent | src/pages/MessagesPage.tsx:90 | lower-casing twice is lower-casing once |
| Text.ContainsIffScan | src/components/ChatBot.tsx:167-184 | `includes` holds exactly when the key occurs at some position of the scan |
| Text.ContainsEmpty | src/pages/MessagesPage.tsx:90 | every string includes the empty string |
| Text.EmptyQueryMatches | src/pages/MessagesPage.tsx:89-91 | the empty search query matches every name |
| Text.CaseIgnored | src/pages/MessagesPage.tsx:89-91 | lower-casing the name or the query beforehand does not change the match |
| Seqs.Filter | src/pages/MessagesPage.tsx:89-91 | `filter` keeps only elements satisfying the predicate and is never longer than its input |
| Seqs.SubsequenceMembers | src/pages/MessagesPage.tsx:89-91 | every element of a subsequence is an element of the sequence |
| Seqs.FilterIsSubsequence | src/pages/MessagesPage.tsx:89-91 | `filter` keeps the original relative order |
| Seqs.FilterMembership | src/pages/MessagesPage.tsx:89-91 | an element is in the filtered list exactly when it is in the list and satisfies the predicate |
| Seqs.FilterKeepsAll | src/components/ShareModal.tsx:53-55 | when every element satisfies the predicate, `filter` returns the list unchanged |
| Seqs.FilterIdempotent | src/pages/MessagesPage.tsx:89-91 | filtering twice with the same predicate is filtering once |
| Seqs.FilterCount | src/pages/MessagesPage.tsx:89-91 | `filter` keeps every occurrence of an accepted element and no occurrence of a rejected one |
| Seqs.RemoveAll | src/pages/FashionEducationPage.tsx:89-92 | `filter(id => id !== x)` leaves no `x`, keeps every other element in order, and is shorter by exactly the number of occurrences of `x` |
| Seqs.RemoveLength | src/pages/FashionEducationPage.tsx:89-92 | filtering out `x` shortens the list by exactly the number of occurrences of `x` |
| Seqs.RemoveAbsent | src/pages/FashionEducationPage.tsx:89-92 | removing an absent id changes nothing |
| Seqs.FilterAppend | src/pages/FashionEducationPage.tsx:89-92 | filtering distributes over concatenation |
| Seqs.RemoveAppended | src/pages/FashionEducationPage.tsx:72-74 | removing an id that was just appended to a list without it restores the list |
| Seqs.CountAppend | src/pages/FashionEducationPage.tsx:72-74 | appending `x` raises the number of occurrences of `x` by one |
| ChatBot.Classify | src/components/ChatBot.tsx:166-186 | the keyword `if` chain as a topic; stated by `ClassifyIsFirstMatch` (first matching rule of the ordered rule table), `DefaultIffNoKeyword` and `GreetingTakesPrecedence` |
| ChatBot.GetAIResponse | src/components/ChatBot.tsx:166-186 | `getAIResponse`: the canned reply of the classified topic; stated by `ReplyIsFixed`, `DefaultIffNoKeyword`, `GreetingTakesPrecedence`, `ThisIsAGreeting` and `GreetingBeforeStyle` |
| ChatBot.Toggled | src/components/ChatBot.tsx:30-32 | `toggleChat`; stated by `ToggleTwice` |
| ChatBot.Submitted | src/components/ChatBot.tsx:34-47 | `handleSubmit` up to scheduling the reply; stated by `BlankSubmitIgnored`, `SubmitValid` and `SubmitThenReply` |
| ChatBot.Respond | src/components/ChatBot.tsx:52 | the reply the timer computes: `getAIResponse` of the lower-cased submitted line; used by `Step` and `FireReply` |
| ChatBot.Replied | src/components/ChatBot.tsx:50-61 | the timer callback appending the reply and ending loading; stated by `ReplyValid`, `SubmitThenReply` and `Exchanged` |
| ChatBot.Step | src/components/ChatBot.tsx:30-62 | one page or timer event, with typing and submitting acting only while the form is rendered and enabled (lines 80, 139, 145); stated by `StepValid`, `RunValid`, `RunAppendOnly` and `StepOneOutstanding` |
| ChatBot.ReplyTextInjective | src/components/ChatBot.tsx:166-186 | the eight canned replies are pairwise different |
| ChatBot.ReplyIsFixed | src/components/ChatBot.tsx:166-186 | every reply is one of the eight canned replies (by construction; distinctness is `ReplyTextInjective`) |
| ChatBot.ClassifyIsFirstMatch | src/components/ChatBot.tsx:166-186 | the `if` chain picks the first keyword group, in source order, that occurs in the input |
| ChatBot.DefaultIffNoKeyword | src/components/ChatBot.tsx:166-186 | the capabilities reply is given exactly when none of the fifteen keywords occurs |
| ChatBot.GreetingTakesPrecedence | src/components/ChatBot.tsx:167-169 | any input containing "hi" is answered with the greeting |
| ChatBot.ThisIsAGreeting | src/components/ChatBot.tsx:167-169 | "this" is answered with the greeting, because it contains "hi" |
| ChatBot.GreetingBeforeStyle | src/components/ChatBot.tsx:167-175 | a style question that also contains "hi" gets the greeting, not the style reply |
| ChatBot.InitialValid | src/components/ChatBot.tsx:17-26 | the initial chat state satisfies the transcript invariant and has no reply outstanding |
| ChatBot.SubmitValid | src/components/ChatBot.tsx:34-47 | a submit keeps the transcript invariant |
| ChatBot.ReplyValid | src/components/ChatBot.tsx:50-61 | the reply callback keeps the transcript invariant |
| ChatBot.StepValid | src/components/ChatBot.tsx:30-62 | every event keeps the invariant: greeting first, loading only while a reply is outstanding, one reply per user line once all have arrived |
| ChatBot.RunValid | src/components/ChatBot.tsx:30-62 | every sequence of events keeps the invariant |
| ChatBot.RunAppendOnly | src/components/ChatBot.tsx:44-61 | the transcript only grows: earlier messages are never changed or removed |
| ChatBot.StepOneOutstanding | src/components/ChatBot.tsx:34-62 | with the form disabled while loading, every page event keeps at most one reply outstanding, and loading is on exactly while one is |
| ChatBot.RunOneOutstanding | src/components/ChatBot.tsx:34-62 | the same for every sequence of page events |
| ChatBot.SubmitShowsPending | src/components/ChatBot.tsx:34-47 | straight after a non-blank submit the untrimmed line is shown as a user message, the input is cleared, loading is on and the line waits for its reply |
| ChatBot.BlankSubmitIgnored | src/components/ChatBot.tsx:34-36 | submitting an input that is empty after trimming changes nothing |
| ChatBot.SubmitThenReply | src/components/ChatBot.tsx:34-62 | a submit then its reply appends exactly the user line and the reply, clears the input, ends loading, and keeps the panel state |
| ChatBot.Exchanged | src/components/ChatBot.tsx:34-62 | one typed, submitted and answered line appends exactly two messages and leaves the widget idle |
| ChatBot.RepeatedTextNotDeduplicated | src/components/ChatBot.tsx:34-62 | sending the same text twice appends it twice, with two replies |
| ChatBot.ToggleTwice | src/components/ChatBot.tsx:30-32 | toggling flips the open flag, and toggling twice restores the state |
| ChatBot.ChatWidget.constructor | src/components/ChatBot.tsx:17-26 | the widget starts closed, empty, not loading, with only the greeting |
| ChatBot.ChatWidget.ToggleChat | src/components/ChatBot.tsx:30-32 | the new state is the toggled state, and the invariant holds |
| ChatBot.ChatWidget.SetInput | src/components/ChatBot.tsx:137 | the input line becomes the typed text and nothing else changes |
| ChatBot.ChatWidget.HandleSubmit | src/components/ChatBot.tsx:34-47 | the new state is the submitted state, and the invariant holds |
| ChatBot.ChatWidget.FireReply | src/components/ChatBot.tsx:50-61 | the oldest outstanding line is answered with the canned reply to its lower-cased text, and the invariant holds |
| FashionEducation.Swiped | src/pages/FashionEducationPage.tsx:68-82 | `handleSwipe` with its 300 ms callback; stated by `SwipeRecordsInOneList`, `SwipeAdvances`, `LastItemSwipedTwice` and `PreviousUndoesSwipe` |
| FashionEducation.Previous | src/pages/FashionEducationPage.tsx:84-95 | `handlePrevious`; stated by `PreviousAtStart`, `PreviousForgets` and `PreviousUndoesSwipe` |
| FashionEducation.Restarted | src/pages/FashionEducationPage.tsx:230-237 | the restart button, rendered on the last card only; stated by `RestartKeepsRatings` |
| FashionEducation.Step | src/pages/FashionEducationPage.tsx:68-95 | one deck event; stated by `StepValid` and `Run` |
| FashionEducation.Progress | src/pages/FashionEducationPage.tsx:66 | the progress percentage; stated by `ProgressBounds` |
| FashionEducation.TipIndex | src/pages/FashionEducationPage.tsx:225 | the tip index is always within the five tips |
| FashionEducation.InitialValid | src/pages/FashionEducationPage.tsx:59-63 | the initial deck state is valid |
| FashionEducation.SwipeRecordsInOneList | src/pages/FashionEducationPage.tsx:68-76 | a swipe appends the current id to exactly the chosen list and leaves the other list and the info panel alone |
| FashionEducation.SwipeAdvances | src/pages/FashionEducationPage.tsx:77-80 | a swipe moves to the next card, except on the last card where the index stays |
| FashionEducation.LastItemSwipedTwice | src/pages/FashionEducationPage.tsx:68-82 | swiping the last card twice records its id twice |
| FashionEducation.PreviousAtStart | src/pages/FashionEducationPage.tsx:84-85 | "previous" on the first card changes nothing |
| FashionEducation.PreviousForgets | src/pages/FashionEducationPage.tsx:84-95 | "previous" steps back one card and removes that card's id from the liked list, or else from the disliked list, never both |
| FashionEducation.PreviousUndoesSwipe | src/pages/FashionEducationPage.tsx:68-95 | a swipe of a fresh card followed by "previous" restores the state before the swipe |
| FashionEducation.RestartKeepsRatings | src/pages/FashionEducationPage.tsx:230-237 | restart on the last card returns to the first card and keeps both lists |
| FashionEducation.StepValid | src/pages/FashionEducationPage.tsx:68-95 | every event keeps the index in range and every recorded id a valid item id |
| FashionEducation.Run | src/pages/FashionEducationPage.tsx:68-95 | any sequence of deck events from a valid deck ends in a valid deck |
| FashionEducation.ProgressBounds | src/pages/FashionEducationPage.tsx:66 | progress lies in (0, 100] and is 100 exactly on the last card |
| FashionEducation.SwipeSession.constructor | src/pages/FashionEducationPage.tsx:59-63 | the deck starts on the first card with empty lists |
| FashionEducation.SwipeSession.HandleSwipe | src/pages/FashionEducationPage.tsx:68-82 | the new state is the swiped state, and it stays valid |
| FashionEducation.SwipeSession.HandlePrevious | src/pages/FashionEducationPage.tsx:84-95 | the new state is the stepped-back state, and it stays valid |
| FashionEducation.SwipeSession.Restart | src/pages/FashionEducationPage.tsx:230-237 | the new state is the restarted state, and it stays valid |
| FashionEducation.SwipeSession.ToggleInfo | src/pages/FashionEducationPage.tsx:168 | the info panel flag flips, and the deck stays valid |
| FeedPost.Liked | src/components/FeedPost.tsx:69-71 | `handleLike`; stated by `LikeAndSaveToggle` and `LikeMovesCountByOne` |
| FeedPost.SuperLiked | src/components/FeedPost.tsx:74-78 | `handleSuperLike`; stated by `SuperLikeGated` |
| FeedPost.Saved | src/components/FeedPost.tsx:81-83 | `handleSave`; stated by `LikeAndSaveToggle` and `SaveShowsSegment` |
| FeedPost.CommentsToggled | src/components/FeedPost.tsx:86-91 | `handleToggleComments` with its callback decision; stated by `CommentCallbackOnOpen` |
| FeedPost.Counters | src/components/FeedPost.tsx:206-214 | the counter line; stated by `LikeMovesCountByOne`, `SegmentsShownIffPositive` and `SaveShowsSegment` |
| FeedPost.CommentNoun | src/components/FeedPost.tsx:225 | the comment noun; stated by `CommentNounPlural` |
| FeedPost.CommentsShown | src/components/FeedPost.tsx:222 | the comment list is on screen when the panel is open and there is a comment; stated by `ToggleShowsComments` and `HandleToggleComments` |
| FeedPost.ToggleShowsComments | src/components/FeedPost.tsx:222 | after the toggle the comment list is shown exactly when it was hidden before and the post has a comment; a post without comments never shows it; a shown list is hidden by the toggle |
| FeedPost.LikeAndSaveToggle | src/components/FeedPost.tsx:69-83 | like and save each flip exactly their own flag, and twice is the identity |
| FeedPost.SuperLikeGated | src/components/FeedPost.tsx:74-78 | super-like changes the state exactly when the rating is at least 80, only touches its own flag, and twice is the identity |
| FeedPost.CommentCallbackOnOpen | src/components/FeedPost.tsx:86-91 | toggling comments flips the panel, and the callback is called exactly when the panel opens and a callback is given |
| FeedPost.LikeMovesCountByOne | src/components/FeedPost.tsx:206-207 | a like moves the shown like count by exactly one, never below the prop, and leaves the other segments alone |
| FeedPost.SegmentsShownIffPositive | src/components/FeedPost.tsx:208-213 | the super and saves segments appear exactly when their adjusted counts are positive, and show those counts |
| FeedPost.SaveShowsSegment | src/components/FeedPost.tsx:211-213 | with no saves, saving makes the saves segment appear with count 1 |
| FeedPost.CommentNounPlural | src/components/FeedPost.tsx:225 | the noun is "comment" for exactly one comment and "comments" otherwise |
| FeedPost.FeedPostView.constructor | src/components/FeedPost.tsx:63-66 | a card starts with no reactions and keeps its props |
| FeedPost.FeedPostView.HandleLike | src/components/FeedPost.tsx:69-71 | the new reactions are the liked reactions; the rendered like count moves by one and the other segments stay |
| FeedPost.FeedPostView.HandleSuperLike | src/components/FeedPost.tsx:74-78 | the new reactions are the super-liked reactions for the author's rating |
| FeedPost.FeedPostView.HandleSave | src/components/FeedPost.tsx:81-83 | the new reactions are the saved reactions; the rendered likes and super segment stay |
| FeedPost.FeedPostView.HandleToggleComments | src/components/FeedPost.tsx:86-91 | the new reactions and the callback decision are those of the comment toggle, and the comment list is now shown exactly when it was hidden and the post has a comment |
| FeedPost.FeedPostView.Rendered | src/components/FeedPost.tsx:206-214 | the counter line of this card: the likes prop plus one when liked, and the super and saves segments shown exactly when the prop plus the viewer's own reaction is positive, with that count |
| SQCalculator.ScoreColor | src/pages/SQCalculatorPage.tsx:26-31 | `getScoreColor`; stated by `ChainsFollowBand`, `BandEntriesDistinct` and `LabelMatchesColor` |
| SQCalculator.ScoreLabel | src/pages/SQCalculatorPage.tsx:34-39 | `getScoreLabel`; stated by `ChainsFollowBand`, `LabelMatchesColor` and `DemoIsStyleStar` |
| SQCalculator.Band | src/pages/SQCalculatorPage.tsx:26-39 | the band index of a score is between 0 and 3 |
| SQCalculator.ChainsFollowBand | src/pages/SQCalculatorPage.tsx:26-39 | the colour chain and the label chain both select the entry of the same band |
| SQCalculator.BandEntriesDistinct | src/pages/SQCalculatorPage.tsx:26-39 | the four labels and the four colours are pairwise different |
| SQCalculator.LabelMatchesColor | src/pages/SQCalculatorPage.tsx:26-39 | two scores share a label exactly when they share a colour, exactly when they share a band |
| SQCalculator.BandMonotone | src/pages/SQCalculatorPage.tsx:26-39 | a higher score never gets a lower band |
| SQCalculator.DemoIsStyleStar | src/pages/SQCalculatorPage.tsx:119-125 | the mock total of 83 is labelled "Style Star" |
| SQCalculator.Step | src/pages/SQCalculatorPage.tsx:102-130 | one page event (the buttons at lines 190, 239-240, 258 and 380, and the timer); stated by `StepValid`, `AnalyzeThenDone` and `BackDoesNotCancelAnalysis` |
| SQCalculator.StepValid | src/pages/SQCalculatorPage.tsx:102-130 | every event keeps the page valid and makes only the code's step changes; step 3 is entered only when an analysis completes; results are shown exactly on step 3 |
| SQCalculator.Run | src/pages/SQCalculatorPage.tsx:102-130 | any sequence of page and timer events from a valid page ends in a valid page |
| SQCalculator.AnalyzeThenDone | src/pages/SQCalculatorPage.tsx:114-130 | analyse then completion leads to step 3 with the mock results, no longer analysing |
| SQCalculator.BackDoesNotCancelAnalysis | src/pages/SQCalculatorPage.tsx:114-130 | going back during an analysis shows step 1, and the pending completion still jumps to step 3 |
| SQCalculator.SQCalculatorPage.constructor | src/pages/SQCalculatorPage.tsx:102-108 | the page starts on step 1, idle, with no results |
| SQCalculator.SQCalculatorPage.Calculate | src/pages/SQCalculatorPage.tsx:190 | the new state is the step function on "calculate", and the page stays valid |
| SQCalculator.SQCalculatorPage.BackToInformation | src/pages/SQCalculatorPage.tsx:258 | the new state is the step function on "back", and the page stays valid |
| SQCalculator.SQCalculatorPage.AnalyzeSQ | src/pages/SQCalculatorPage.tsx:114-117 | the new state is the step function on "analyse", which is a no-op while the button is disabled, and the page stays valid |
| SQCalculator.SQCalculatorPage.CompleteAnalysis | src/pages/SQCalculatorPage.tsx:118-129 | the new state is the step function on the timer's completion, and the page stays valid |
| SQCalculator.SQCalculatorPage.CalculateAgain | src/pages/SQCalculatorPage.tsx:380 | the new state is the step function on "calculate again", and the page stays valid |
| ScoreDisplay.Percentage | src/components/ScoreDisplay.tsx:17 | for a non-zero maximum the percentage is finite with percentage·max = score·100; for a zero maximum it is +∞ for a positive score, −∞ for a negative one and NaN for 0 |
| ScoreDisplay.GetColor | src/components/ScoreDisplay.tsx:19-23 | the colour is always green, amber or red |
| ScoreDisplay.DisplayColor | src/components/ScoreDisplay.tsx:13-23 | the colour with the maximum defaulted to 10; stated by `DefaultBands` |
| ScoreDisplay.ColorsDistinct | src/components/ScoreDisplay.tsx:19-23 | the three colour classes are different |
| ScoreDisplay.PercentageAtLeast | src/components/ScoreDisplay.tsx:17-21 | for a positive maximum, percentage ≥ b exactly when score·100 ≥ b·max |
| ScoreDisplay.ColorBands | src/components/ScoreDisplay.tsx:17-23 | for a positive maximum: green iff score ≥ 0.8·max; amber iff 0.6·max ≤ score < 0.8·max; red iff score < 0.6·max |
| ScoreDisplay.DefaultBands | src/components/ScoreDisplay.tsx:13-23 | with the default maximum 10: green iff ≥ 8, amber iff in [6, 8), red iff < 6 |
| ScoreDisplay.ColorMonotone | src/components/ScoreDisplay.tsx:19-23 | for a positive maximum, a higher score never gets a worse colour |
| ScoreDisplay.ZeroMaxScore | src/components/ScoreDisplay.tsx:17-23 | with a maximum of 0, a positive score is green and any other score is red |
| Lookbook.Insert | src/pages/LookbookPage.tsx:88-94 | inserting into a descending list keeps it descending, grows it by one, and puts the new outfit or the old head first |
| Lookbook.InsertIsPermutation | src/pages/LookbookPage.tsx:88-94 | insertion adds exactly the new outfit to the multiset |
| Lookbook.SortedDescPairwise | src/pages/LookbookPage.tsx:88-94 | in a descending list, an earlier outfit never has a smaller key than a later one |
| Lookbook.Sort | src/pages/LookbookPage.tsx:88-94 | the sorted lookbook is in descending key order |
| Lookbook.SortIsPermutation | src/pages/LookbookPage.tsx:88-94 | sorting is a permutation of the outfits |
| Lookbook.InsertWithKey | src/pages/LookbookPage.tsx:88-94 | insertion keeps the relative order of outfits with an equal key |
| Lookbook.SortIsStable | src/pages/LookbookPage.tsx:88-94 | the sort is stable: outfits with equal keys keep their input order |
| Lookbook.SortOfSorted | src/pages/LookbookPage.tsx:88-94 | sorting an already descending list returns it unchanged |
| Lookbook.SortedLookbook | src/pages/LookbookPage.tsx:88-94 | `sortedLookbook` for a sort key; stated by `MockByDate`, `MockByScore`, and by `Sort`, `SortIsPermutation` and `SortIsStable` |
| Lookbook.EmptyStateIffNoOutfits | src/pages/LookbookPage.tsx:139 | the "no outfits yet" panel appears exactly when there are no outfits |
| Lookbook.MockByDate | src/pages/LookbookPage.tsx:13-94 | for any sort key other than "score", the mock outfits are shown in their listed, newest-first order |
| Lookbook.MockByScore | src/pages/LookbookPage.tsx:13-94 | sorted by score, the mock outfits appear as 9.2, 8.9, 8.5, 7.8 |
| Lookbook.LookbookPage.constructor | src/pages/LookbookPage.tsx:85-86 | the page starts sorted by date with no outfit selected |
| Lookbook.LookbookPage.SetSortBy | src/pages/LookbookPage.tsx:85 | changing the sort key keeps the selection |
| Lookbook.LookbookPage.HandleOutfitClick | src/pages/LookbookPage.tsx:96-98 | clicking an outfit selects it and opens the dialog |
| Lookbook.LookbookPage.HandleDialogClose | src/pages/LookbookPage.tsx:100-102 | closing clears the selection and the dialog is closed |
| Messages.FilteredConversations | src/pages/MessagesPage.tsx:89-91 | `filteredConversations`; stated by `FilteredIsSubsequence`, `FilteredMembership`, `EmptyQueryListsAll` and `UpperCaseQueryFindsEmma` |
| Messages.FilteredIsSubsequence | src/pages/MessagesPage.tsx:89-91 | the filtered conversations keep their order and are never more than the full list |
| Messages.FilteredMembership | src/pages/MessagesPage.tsx:89-91 | a conversation is listed exactly when its name contains the query, ignoring case |
| Messages.EmptyQueryListsAll | src/pages/MessagesPage.tsx:87-91 | with the initial empty query, every conversation is listed |
| Messages.FilterIdempotentForQuery | src/pages/MessagesPage.tsx:89-91 | filtering the filtered list again by the same query changes nothing |
| Messages.UpperCaseQueryFindsEmma | src/pages/MessagesPage.tsx:89-91 | the query "EMMA" finds Emma Wilson |
| Messages.ChatPath | src/pages/MessagesPage.tsx:93-95 | the chat route is "/messages/" followed by the conversation id |
| Messages.ChatPathInjective | src/pages/MessagesPage.tsx:93-95 | different conversation ids lead to different routes |
| Messages.NewMessageRouteShared | src/pages/MessagesPage.tsx:93-100 | the new-message route equals the chat route of id "new", which no listed conversation uses |
| ShareModal.FilteredFriends | src/components/ShareModal.tsx:53-55 | `filteredFriends`; stated by `FilteredFriendsSpec`, `EmptyQueryListsAllFriends` and `NoFriendsFoundIffNoMatch` |
| ShareModal.FilteredFriendsSpec | src/components/ShareModal.tsx:53-55 | the listed friends keep their order and are exactly those whose name contains the query, ignoring case |
| ShareModal.EmptyQueryListsAllFriends | src/components/ShareModal.tsx:53-55 | with an empty query, all five friends are listed |
| ShareModal.NoFriendsFoundIffNoMatch | src/components/ShareModal.tsx:106 | "No friends found" is shown exactly when no friend's name matches |
| ShareModal.ShareLink | src/components/ShareModal.tsx:57-60 | the link is the "https://tuff.io/post/" prefix followed by the post id |
| ShareModal.ShareLinkInjective | src/components/ShareModal.tsx:57-60 | different post ids give different links |
| ShareModal.CopyLink | src/components/ShareModal.tsx:57-65 | a link is copied exactly when there is a post, and it is that post's share link |
| ShareModal.CaptionPreview | src/components/ShareModal.tsx:144 | the preview is the first min(len, 30) characters of the caption followed by "..." |
| ShareModal.ShortCaptionShownWhole | src/components/ShareModal.tsx:144 | a caption of at most 30 characters is shown whole, still followed by "..." |
| ShareModal.Render | src/components/ShareModal.tsx:74-163 | the component's return value (dialog visibility through `isOpen` is not modelled); stated by `NullPostRendersNothing` |
| ShareModal.NullPostRendersNothing | src/components/ShareModal.tsx:74-129 | the component returns nothing exactly when there is no post; otherwise the link its copy button writes is the copied link, and the empty message appears exactly when no friend is listed |
| NewPostModal.FileChosen | src/components/NewPostModal.tsx:38-57 | `handleFileChange`; stated by `FileChoiceRules` and `MimeExamples` |
| NewPostModal.ImageRemoved | src/components/NewPostModal.tsx:63-68 | `handleRemoveImage`; stated by `RemoveImageBlocksSubmit` |
| NewPostModal.Submitted | src/components/NewPostModal.tsx:70-94 | `handleSubmit`; stated by `SubmitNeedsImage`, `SubmitResetsForm` and `SubmitReturnsToInitial` |
| NewPostModal.FileChoiceRules | src/components/NewPostModal.tsx:38-57 | no file leaves the form alone; a non-`image/` type is rejected and leaves the form alone; an image sets the preview to the data URL and keeps the other fields |
| NewPostModal.MimeExamples | src/components/NewPostModal.tsx:42 | "image/jpeg" is loaded and "application/pdf" is rejected |
| NewPostModal.SubmitNeedsImage | src/components/NewPostModal.tsx:70-78 | submit closes the modal exactly when an image is present; otherwise the form is unchanged |
| NewPostModal.SubmitResetsForm | src/components/NewPostModal.tsx:80-93 | a successful submit closes the modal and resets every field, leaving no image |
| NewPostModal.RemoveImageBlocksSubmit | src/components/NewPostModal.tsx:63-78 | removing the image clears only the image, after which submit is refused |
| NewPostModal.SubmitReturnsToInitial | src/components/NewPostModal.tsx:70-93 | after a successful submit the form is the initial form, and an immediate second submit is refused |
| NewPostModal.NewPostForm.constructor | src/components/NewPostModal.tsx:29-34 | the form starts with no image and empty fields |
| NewPostModal.NewPostForm.HandleFileChange | src/components/NewPostModal.tsx:38-57 | the new form and the outcome are those of the file choice rules |
| NewPostModal.NewPostForm.HandleRemoveImage | src/components/NewPostModal.tsx:63-68 | the new form is the form without its image |
| NewPostModal.NewPostForm.HandleSubmit | src/components/NewPostModal.tsx:70-94 | the new form and the close decision are those of the submit rules |

## Left out

- Timestamps (`new Date()`) on chat messages are not modelled. Messages are role and text only.
- The chat's `try`/`catch` error toast is not modelled. The scheduled callback never throws.
- The chat's auto-scroll and the page animations (`framer-motion` variants) are not modelled. They are presentation only.
- ChatBot.SubmitThenReply, ChatBot.Exchanged and ChatBot.RepeatedTextNotDeduplicated are stated for an arbitrary reply text. The class method `FireReply` and the `ReplyTimer` event fix that text to the canned reply of the lower-cased input.
- The chat's submit handler has no loading check. The UI disables the input and the button while loading, and renders the form only while the panel is open. `ChatBot.Step` applies typing and submits only then, and `ChatBot.RunOneOutstanding` shows at most one reply is outstanding. The class methods `SetInput` and `HandleSubmit` model the handlers and accept a call while closed or loading; their replies queue in order.
- Swipe timing is simplified: the swipe handler and its 300 ms callback are one atomic step. Overlapping swipes that would see a stale `currentIndex` within 300 ms are not modelled.
- Several `setState` calls in one handler take effect together, as React batches them. The stale-closure reads inside the callbacks are not modelled.
- The share dialog's `isOpen` prop is not modelled. `ShareModal.Render` is what the component returns, not whether the dialog is visible.
- Toasts, clipboard writes and `navigate` are not modelled as effects. Their content is modelled instead: the copied link and the route string.
- `handleShare` in `src/components/FeedPost.tsx` only calls the optional `onShare` callback, so it is not modelled.
- `shareToFriend` in `src/components/ShareModal.tsx` shows a toast only, so it is not modelled.
- `handleUploadClick` and the clearing of the file input's DOM value are not modelled. Both only touch the DOM.
- `FileReader` is not modelled. The data URL it would produce is a parameter of `HandleFileChange`, applied at once rather than on a later `onload`.
- The caption, season, occasion, brand and style setters of the new-post form are not modelled as separate operations. They are plain field writes, and the submit rules cover all five fields.
- `toLowerCase` is modelled for ASCII letters only. Other Unicode case mappings are not modelled.
- Strings are sequences of characters, not UTF-16 code units. `substring(0, 30)` is modelled as the first 30 characters.
- Scores and percentages are exact reals, not IEEE doubles. Rounding at the 60 % and 80 % borders is not modelled.
- ScoreDisplay.Percentage does not distinguish the score −0 from 0. A zero maximum gives +∞, −∞ or NaN by the sign of the score, as in JavaScript.
- `toFixed` formatting of scores is not modelled.
- The SQ circle's SVG stroke arithmetic is not modelled. It is drawing only.
- Lookbook dates are modelled as integer day keys (yyyymmdd), not as parsed `Date` strings. The comparator's subtraction is modelled as a key comparison with a stable insertion sort.
- The demo results and mock lists (friends, conversations, outfits) keep only the fields the logic reads: ids, names, scores and dates.
- Step 1 can go to step 3 on the SQ page. "Back to Information" does not cancel the pending analysis timer, so the completion can arrive on step 1. `AllowedTransition` includes this case, and `SQCalculator.BackDoesNotCancelAnalysis` exhibits it.

=== FILE: chatbot.dfy ===
/**
 * The floating chat assistant (src/components/ChatBot.tsx): a keyword
 * classifier that picks one of eight canned replies, and the transcript
 * that a submit and its deferred reply extend.
 */
module ChatBot {
  import opened Text
  import opened Seqs

  // ---------------------------------------------------------------------
  // The canned responder
  // ---------------------------------------------------------------------

  const GreetingReply := "Hello! How can I help with your fashion needs today?"
  const ColorAnalysisReply := "Our Color Analysis feature helps identify your skin tone and suggests colors that complement you. You can try it by going to the Color Analysis page in the sidebar menu!"
  const UploadReply := "You can upload photos of your outfits by clicking on 'Upload Outfit' in the sidebar. We'll analyze your style and provide feedback!"
  const StyleReply := "For style suggestions, check out our Style Suggestions page. We provide personalized recommendations based on your body type, skin tone, and preferences."
  const BrandReply := "Looking for brand recommendations? Visit our Brand Suggestions page to discover brands that match your style and preferences."
  const LookbookReply := "Your Lookbook is where you can review all your previously uploaded outfits and track your style evolution over time."
  const ThanksReply := "You're welcome! Is there anything else I can help you with?"
  const DefaultReply := "I'm here to help with fashion advice, color analysis, style suggestions, and more. How can I assist you today?"

  /** The eight kinds of reply, one per rule plus the default. */
  datatype Topic = Hello | ColorAnalysis | Upload | Style | Brand | Lookbook | Thanks | Capabilities

  /** The fixed text of each reply. */
  function ReplyText(t: Topic): string
  {
    match t
    case Hello => GreetingReply
    case ColorAnalysis => ColorAnalysisReply
    case Upload => UploadReply
    case Style => StyleReply
    case Brand => BrandReply
    case Lookbook => LookbookReply
    case Thanks => ThanksReply
    case Capabilities => DefaultReply
  }

  /** The eight replies are pairwise different strings (they differ in length). */
  lemma ReplyTextInjective(t: Topic, u: Topic)
    requires t != u
    ensures ReplyText(t) != ReplyText(u)
  {
    assert |ReplyText(t)| != |ReplyText(u)|;
  }

  /** One rule of the responder: any of `keywords` selects `topic`. */
  datatype Rule = Rule(keywords: seq<string>, topic: Topic)

  /** The seven keyword rules, in the order they are tried. */
  const Rules: seq<Rule> := [
    Rule(["hello", "hi", "hey"], Hello),
    Rule(["color analysis", "skin tone"], ColorAnalysis),
    Rule(["upload", "photo", "picture"], Upload),
    Rule(["style", "suggestion"], Style),
    Rule(["brand", "shop", "product"], Brand),
    Rule(["lookbook"], Lookbook),
    Rule(["thank"], Thanks)
  ]

  /** All fifteen keywords of the rules. */
  const Keywords: seq<string> :=
    ["hello", "hi", "hey", "color analysis", "skin tone", "upload", "photo", "picture",
     "style", "suggestion", "brand", "shop", "product", "lookbook", "thank"]

  /** Some keyword of `keywords` occurs in `input`. */
  predicate AnyOccurs(input: string, keywords: seq<string>)
  {
    keywords != [] && (Contains(input, keywords[0]) || AnyOccurs(input, keywords[1..]))
  }

  lemma AnyOccursOfOne(input: string, a: string)
    ensures AnyOccurs(input, [a]) <==> Contains(input, a)
  {
    assert [a][1..] == [];
  }

  lemma AnyOccursOfTwo(input: string, a: string, b: string)
    ensures AnyOccurs(input, [a, b]) <==> Contains(input, a) || Contains(input, b)
  {
    assert [a, b][1..] == [b];
    AnyOccursOfOne(input, b);
  }

  lemma AnyOccursOfThree(input: string, a: string, b: string, c: string)
    ensures AnyOccurs(input, [a, b, c]) <==> Contains(input, a) || Contains(input, b) || Contains(input, c)
  {
    assert [a, b, c][1..] == [b, c];
    AnyOccursOfTwo(input, b, c);
  }

  /**
   * Reference reading of the responder: the topic of the first rule with an
   * occurring keyword, or the capabilities reply when no rule matches.
   */
  function FirstMatch(rules: seq<Rule>, input: string): Topic
  {
    if rules == [] then Capabilities
    else if AnyOccurs(input, rules[0].keywords) then rules[0].topic
    else FirstMatch(rules[1..], input)
  }

  /** The ordered substring checks of `getAIResponse`. */
  function Classify(input: string): Topic
  {
    if Contains(input, "hello") || Contains(input, "hi") || Contains(input, "hey") then
      Hello
    else if Contains(input, "color analysis") || Contains(input, "skin tone") then
      ColorAnalysis
    else if Contains(input, "upload") || Contains(input, "photo") || Contains(input, "picture") then
      Upload
    else if Contains(input, "style") || Contains(input, "suggestion") then
      Style
    else if Contains(input, "brand") || Contains(input, "shop") || Contains(input, "product") then
      Brand
    else if Contains(input, "lookbook") then
      Lookbook
    else if Contains(input, "thank") then
      Thanks
    else
      Capabilities
  }

  /** `getAIResponse`: the fixed reply of the topic the input is classified under. */
  function GetAIResponse(input: string): string
  {
    ReplyText(Classify(input))
  }

  /**
   * Every input gets an answer, and it is one of the eight fixed replies.
   * This holds by the construction of `GetAIResponse`; it says something
   * about the source together with `ReplyTextInjective`, which shows the
   * eight replies are distinct texts.
   */
  lemma ReplyIsFixed(input: string)
    ensures exists t :: GetAIResponse(input) == ReplyText(t)
  {
    assert GetAIResponse(input) == ReplyText(Classify(input));
  }

  /** The if-chain answers with the first rule, in order, one of whose keywords occurs. */
  lemma ClassifyIsFirstMatch(input: string)
    ensures Classify(input) == FirstMatch(Rules, input)
  {
    var r0 := Rules;
    var r1 := r0[1..];
    var r2 := r1[1..];
    var r3 := r2[1..];
    var r4 := r3[1..];
    var r5 := r4[1..];
    var r6 := r5[1..];
    assert r6[1..] == [];
    AnyOccursOfThree(input, "hello", "hi", "hey");
    AnyOccursOfTwo(input, "color analysis", "skin tone");
    AnyOccursOfThree(input, "upload", "photo", "picture");
    AnyOccursOfTwo(input, "style", "suggestion");
    AnyOccursOfThree(input, "brand", "shop", "product");
    AnyOccursOfOne(input, "lookbook");
    AnyOccursOfOne(input, "thank");
    assert r0[0] == Rule(["hello", "hi", "hey"], Hello);
    assert r1[0] == Rule(["color analysis", "skin tone"], ColorAnalysis);
    assert r2[0] == Rule(["upload", "photo", "picture"], Upload);
    assert r3[0] == Rule(["style", "suggestion"], Style);
    assert r4[0] == Rule(["brand", "shop", "product"], Brand);
    assert r5[0] == Rule(["lookbook"], Lookbook);
    assert r6[0] == Rule(["thank"], Thanks);
    assert FirstMatch(r6, input) == if Contains(input, "thank") then Thanks else Capabilities;
    assert FirstMatch(r5, input) == if Contains(input, "lookbook") then Lookbook else FirstMatch(r6, input);
    assert FirstMatch(r4, input) ==
      if Contains(input, "brand") || Contains(input, "shop") || Contains(input, "product")
      then Brand else FirstMatch(r5, input);
    assert FirstMatch(r3, input) ==
      if Contains(input, "style") || Contains(input, "suggestion") then Style else FirstMatch(r4, input);
    assert FirstMatch(r2, input) ==
      if Contains(input, "upload") || Contains(input, "photo") || Contains(input, "picture")
      then Upload else FirstMatch(r3, input);
    assert FirstMatch(r1, input) ==
      if Contains(input, "color analysis") || Contains(input, "skin tone")
      then ColorAnalysis else FirstMatch(r2, input);
  }

  /** The capabilities reply is given exactly when none of the fifteen keywords occurs. */
  lemma DefaultIffNoKeyword(input: string)
    ensures GetAIResponse(input) == DefaultReply <==> forall i :: 0 <= i < |Keywords| ==> !Contains(input, Keywords[i])
  {
    assert Keywords[0] == "hello" && Keywords[1] == "hi" && Keywords[2] == "hey";
    assert Keywords[3] == "color analysis" && Keywords[4] == "skin tone";
    assert Keywords[5] == "upload" && Keywords[6] == "photo" && Keywords[7] == "picture";
    assert Keywords[8] == "style" && Keywords[9] == "suggestion";
    assert Keywords[10] == "brand" && Keywords[11] == "shop" && Keywords[12] == "product";
    assert Keywords[13] == "lookbook" && Keywords[14] == "thank";
    assert |Keywords| == 15;
    if Classify(input) == Capabilities {
      forall i | 0 <= i < |Keywords| ensures !Contains(input, Keywords[i]) {
        assert i in {0, 1, 2, 3, 4, 5, 6, 7, 8, 9, 10, 11, 12, 13, 14};
      }
    } else {
      ReplyTextInjective(Classify(input), Capabilities);
    }
  }

  /** Any text containing "hi" gets the greeting, whatever else it contains. */
  lemma GreetingTakesPrecedence(input: string)
    requires Contains(input, "hi")
    ensures GetAIResponse(input) == GreetingReply
  {
  }

  /** "this" contains "hi", so it is answered with the greeting. */
  lemma ThisIsAGreeting()
    ensures GetAIResponse("this") == GreetingReply
  {
    assert OccursAt("this", "hi", 1);
  }

  /** A request for style suggestions that opens with "hi" gets the greeting, not the style reply. */
  lemma GreetingBeforeStyle()
    ensures GetAIResponse("hi, can i get style suggestions") == GreetingReply
  {
    assert OccursAt("hi, can i get style suggestions", "hi", 0);
  }

  // ---------------------------------------------------------------------
  // The transcript
  // ---------------------------------------------------------------------

  /** The opening message of every transcript. */
  const Greeting := "Hi there! I'm your TUFF assistant. How can I help you with your fashion and styling needs today?"

  datatype Role = User | Assistant

  /** A transcript entry; its timestamp is not modelled. */
  datatype Message = Message(role: Role, content: string)

  /**
   * The widget state. `pending` holds, oldest first, the inputs captured by
   * submits whose one-second reply timer has not fired yet.
   */
  datatype ChatState = ChatState(
    isOpen: bool, input: string, messages: seq<Message>, isLoading: bool, pending: seq<string>)

  const InitialState := ChatState(false, "", [Message(Assistant, Greeting)], false, [])

  /** `toggleChat`. */
  function Toggled(st: ChatState): ChatState
  {
    st.(isOpen := !st.isOpen)
  }

  /** The input field's `onChange`. */
  function WithInput(st: ChatState, text: string): ChatState
  {
    st.(input := text)
  }

  /** `handleSubmit` up to the point where it schedules the reply. */
  function Submitted(st: ChatState): ChatState
  {
    if IsBlank(st.input) then st
    else st.(messages := st.messages + [Message(User, st.input)],
             input := "", isLoading := true, pending := st.pending + [st.input])
  }

  /** The reply the timer callback computes for a submitted input. */
  function Respond(submitted: string): string
  {
    GetAIResponse(ToLower(submitted))
  }

  /**
   * The reply timer scheduled by the oldest outstanding submit fires and
   * appends `reply`, which is `Respond` of that submit's input.
   */
  function Replied(st: ChatState, reply: string): ChatState
    requires st.pending != []
  {
    st.(messages := st.messages + [Message(Assistant, reply)],
        isLoading := false, pending := st.pending[1..])
  }

  datatype Event = ToggleChat | Type(text: string) | Submit | ReplyTimer

  /**
   * The form is rendered only while the panel is open, and its input and
   * button are disabled while a reply is loading.
   */
  predicate FormEnabled(st: ChatState)
  {
    st.isOpen && !st.isLoading
  }

  /**
   * One event as the page can deliver it: typing and submitting only reach
   * the handlers while the form is enabled, and a reply timer can only fire
   * while one is outstanding.
   */
  function Step(st: ChatState, ev: Event): ChatState
  {
    match ev
    case ToggleChat => Toggled(st)
    case Type(text) => if FormEnabled(st) then WithInput(st, text) else st
    case Submit => if FormEnabled(st) then Submitted(st) else st
    case ReplyTimer => if st.pending == [] then st else Replied(st, Respond(st.pending[0]))
  }

  function Run(st: ChatState, evs: seq<Event>): ChatState
    decreases |evs|
  {
    if evs == [] then st else Run(Step(st, evs[0]), evs[1..])
  }

  /** The number of messages in `msgs` with role `role`. */
  function CountRole(msgs: seq<Message>, role: Role): nat
  {
    if msgs == [] then 0
    else CountRole(msgs[..|msgs| - 1], role) + (if msgs[|msgs| - 1].role == role then 1 else 0)
  }

  /**
   * The transcript invariant: it opens with the greeting, the loading flag is
   * only raised while a reply is outstanding, and every user message has been
   * answered except those whose reply is still pending.
   */
  ghost predicate Valid(st: ChatState)
  {
    |st.messages| >= 1 && st.messages[0] == Message(Assistant, Greeting) &&
    (st.pending == [] ==> !st.isLoading) &&
    CountRole(st.messages, User) + 1 == CountRole(st.messages, Assistant) + |st.pending|
  }

  lemma InitialValid()
    ensures Valid(InitialState)
    ensures OneOutstanding(InitialState)
  {
    var m := InitialState.messages;
    assert m[..|m| - 1] == [];
  }

  lemma CountRoleAppend(msgs: seq<Message>, m: Message, role: Role)
    ensures CountRole(msgs + [m], role) == CountRole(msgs, role) + (if m.role == role then 1 else 0)
  {
    assert (msgs + [m])[..|msgs + [m]| - 1] == msgs;
  }

  /** A submit keeps the transcript invariant: one more user message, one more pending reply. */
  lemma SubmitValid(st: ChatState)
    requires Valid(st)
    ensures Valid(Submitted(st))
  {
    if !IsBlank(st.input) {
      CountRoleAppend(st.messages, Message(User, st.input), User);
      CountRoleAppend(st.messages, Message(User, st.input), Assistant);
    }
  }

  /** A reply keeps the transcript invariant: one more assistant message, one fewer pending reply. */
  lemma ReplyValid(st: ChatState, reply: string)
    requires Valid(st) && st.pending != []
    ensures Valid(Replied(st, reply))
  {
    var m := Message(Assistant, reply);
    CountRoleAppend(st.messages, m, User);
    CountRoleAppend(st.messages, m, Assistant);
  }

  /** Every event keeps the transcript invariant. */
  lemma StepValid(st: ChatState, ev: Event)
    requires Valid(st)
    ensures Valid(Step(st, ev))
  {
    match ev
    case Submit => if FormEnabled(st) { SubmitValid(st); }
    case ReplyTimer =>
      if st.pending != [] {
        ReplyValid(st, Respond(st.pending[0]));
      }
    case _ =>
  }

  /** Every sequence of events keeps the transcript invariant. */
  lemma {:induction false} RunValid(st: ChatState, evs: seq<Event>)
    requires Valid(st)
    ensures Valid(Run(st, evs))
    decreases |evs|
  {
    if evs != [] {
      StepValid(st, evs[0]);
      RunValid(Step(st, evs[0]), evs[1..]);
    }
  }

  /** Messages are only appended: the old transcript is a prefix of the new one. */
  lemma {:induction false} RunAppendOnly(st: ChatState, evs: seq<Event>)
    ensures |st.messages| <= |Run(st, evs).messages|
    ensures Run(st, evs).messages[..|st.messages|] == st.messages
    decreases |evs|
  {
    if evs != [] {
      var next := Step(st, evs[0]);
      assert |st.messages| <= |next.messages| && next.messages[..|st.messages|] == st.messages;
      RunAppendOnly(next, evs[1..]);
      var fin := Run(next, evs[1..]).messages;
      assert fin[..|st.messages|] == fin[..|next.messages|][..|st.messages|];
    }
  }

  /**
   * Through the page, at most one reply is outstanding at a time, and the
   * loading indicator is shown exactly while it is.
   */
  predicate OneOutstanding(st: ChatState)
  {
    |st.pending| <= 1 && (st.isLoading <==> st.pending != [])
  }

  lemma StepOneOutstanding(st: ChatState, ev: Event)
    requires OneOutstanding(st)
    ensures OneOutstanding(Step(st, ev))
  {
  }

  /** Every sequence of page events keeps at most one reply outstanding; `InitialValid` starts it. */
  lemma {:induction false} RunOneOutstanding(st: ChatState, evs: seq<Event>)
    requires OneOutstanding(st)
    ensures OneOutstanding(Run(st, evs))
    decreases |evs|
  {
    if evs != [] {
      StepOneOutstanding(st, evs[0]);
      RunOneOutstanding(Step(st, evs[0]), evs[1..]);
    }
  }

  /**
   * Straight after a non-blank submit, before the reply: the untrimmed line
   * is shown as a user message, the input is cleared, the loading indicator
   * is on and the line waits for its reply.
   */
  lemma SubmitShowsPending(st: ChatState)
    requires !IsBlank(st.input)
    ensures Submitted(st).messages == st.messages + [Message(User, st.input)]
    ensures Submitted(st).input == "" && Submitted(st).isLoading
    ensures Submitted(st).pending == st.pending + [st.input]
    ensures Submitted(st).isOpen == st.isOpen
  {
  }

  /** A blank submit changes nothing. */
  lemma BlankSubmitIgnored(st: ChatState)
    requires IsBlank(st.input)
    ensures Submitted(st) == st
  {
  }

  /**
   * From an idle widget, a non-blank submit followed by its reply appends
   * exactly two messages, the untrimmed user text first and then the reply,
   * and leaves the input cleared and the widget idle. The reply timer then
   * answers the submitted input itself.
   */
  lemma SubmitThenReply(st: ChatState, reply: string)
    requires st.pending == [] && !IsBlank(st.input)
    ensures Submitted(st).pending == [st.input]
    ensures Replied(Submitted(st), reply).messages == st.messages + [Message(User, st.input), Message(Assistant, reply)]
    ensures Replied(Submitted(st), reply).input == ""
    ensures !Replied(Submitted(st), reply).isLoading && Replied(Submitted(st), reply).pending == []
    ensures Replied(Submitted(st), reply).isOpen == st.isOpen
  {
    var u, r := Message(User, st.input), Message(Assistant, reply);
    assert (st.messages + [u]) + [r] == st.messages + [u, r];
  }

  /** Typing `text`, submitting it and receiving `reply`: one exchange. */
  function Exchanged(st: ChatState, text: string, reply: string): (r: ChatState)
    requires st.pending == [] && !IsBlank(text)
    ensures r.messages == st.messages + [Message(User, text), Message(Assistant, reply)]
    ensures r.input == "" && !r.isLoading && r.pending == [] && r.isOpen == st.isOpen
  {
    var typed := WithInput(st, text);
    SubmitThenReply(typed, reply);
    Replied(Submitted(typed), reply)
  }

  /** Sending the same text twice gives two identical exchanges; nothing is deduplicated. */
  lemma RepeatedTextNotDeduplicated(st: ChatState, text: string, reply: string)
    requires st.pending == [] && !IsBlank(text)
    ensures Exchanged(st, text, reply).pending == []
    ensures Exchanged(Exchanged(st, text, reply), text, reply).messages ==
      st.messages + [Message(User, text), Message(Assistant, reply),
                     Message(User, text), Message(Assistant, reply)]
  {
    var once := Exchanged(st, text, reply);
    var twice := Exchanged(once, text, reply);
    var u, r := Message(User, text), Message(Assistant, reply);
    assert twice.messages == (st.messages + [u, r]) + [u, r];
    assert (st.messages + [u, r]) + [u, r] == st.messages + [u, r, u, r];
  }

  /** Toggling the widget twice restores its open state, and nothing else changes. */
  lemma ToggleTwice(st: ChatState)
    ensures Toggled(st).isOpen != st.isOpen
    ensures Toggled(Toggled(st)) == st
  {
  }

  /** The widget's component state, updated in place by its handlers. */
  class ChatWidget {
    var isOpen: bool
    var input: string
    var messages: seq<Message>
    var isLoading: bool
    var pending: seq<string>

    function State(): ChatState
      reads this
    {
      ChatState(isOpen, input, messages, isLoading, pending)
    }

    constructor ()
      ensures State() == InitialState && Valid(State())
    {
      isOpen := false;
      input := "";
      messages := [Message(Assistant, Greeting)];
      isLoading := false;
      pending := [];
      InitialValid();
    }

    method ToggleChat()
      requires Valid(State())
      modifies this
      ensures State() == Toggled(old(State())) && Valid(State())
    {
      isOpen := !isOpen;
    }

    method SetInput(text: string)
      requires Valid(State())
      modifies this
      ensures State() == WithInput(old(State()), text) && Valid(State())
    {
      input := text;
    }

    /** `handleSubmit`: ignore a blank input, else record it and schedule the reply. */
    method HandleSubmit()
      requires Valid(State())
      modifies this
      ensures State() == Submitted(old(State())) && Valid(State())
    {
      SubmitValid(State());
      if IsBlank(input) {
        return;
      }
      var userMessage := Message(User, input);
      messages := messages + [userMessage];
      pending := pending + [input];
      input := "";
      isLoading := true;
    }

    /** The deferred callback of the oldest outstanding submit. */
    method FireReply()
      requires Valid(State()) && pending != []
      modifies this
      ensures State() == Replied(old(State()), Respond(old(pending[0]))) && Valid(State())
    {
      var response := GetAIResponse(ToLower(pending[0]));
      ReplyValid(State(), response);
      messages := messages + [Message(Assistant, response)];
      pending := pending[1..];
      isLoading := false;
    }
  }
}

=== FILE: fashioneducation.dfy ===
/**
 * The swipe-to-rate page (src/pages/FashionEducationPage.tsx): a cursor over
 * five fashion items, the ids the user liked and disliked, and the progress
 * bar and tip derived from the cursor.
 */
module FashionEducation {
  import opened Wrappers
  import opened Seqs

  /** The ids of the five mock items, in display order. */
  const ItemIds: seq<nat> := [1, 2, 3, 4, 5]

  /** The number of fashion tips; the tip shown cycles through them. */
  const TipCount: nat := 5

  /** The direction of the card's exit animation. */
  datatype Direction = Left | Right

  datatype SwipeState = SwipeState(
    currentIndex: nat,
    liked: seq<nat>,
    disliked: seq<nat>,
    direction: Option<Direction>,
    showInfo: bool)

  const InitialSwipe := SwipeState(0, [], [], None, false)

  /** The index of the last item. */
  const LastIndex: nat := |ItemIds| - 1

  /**
   * The session invariant: the cursor points at an item, and every recorded
   * id is the id of some item.
   */
  predicate Valid(st: SwipeState)
  {
    st.currentIndex < |ItemIds| &&
    (forall i :: 0 <= i < |st.liked| ==> st.liked[i] in ItemIds) &&
    (forall i :: 0 <= i < |st.disliked| ==> st.disliked[i] in ItemIds)
  }

  /**
   * `handleSwipe` together with its deferred callback: record the current
   * item's id in one list, then move to the next item unless this is the last
   * one, in which case the exit direction stays set.
   */
  function Swiped(st: SwipeState, liked: bool): SwipeState
    requires st.currentIndex < |ItemIds|
  {
    var id := ItemIds[st.currentIndex];
    var recorded := if liked then st.(liked := st.liked + [id]) else st.(disliked := st.disliked + [id]);
    if st.currentIndex < LastIndex then
      recorded.(currentIndex := st.currentIndex + 1, direction := None)
    else
      recorded.(direction := Some(if liked then Right else Left))
  }

  /**
   * `handlePrevious`: step back one item and forget the rating of the item
   * stepped back to, taking it from the liked list if it is there and else
   * from the disliked list.
   */
  function Previous(st: SwipeState): SwipeState
    requires st.currentIndex < |ItemIds|
  {
    if st.currentIndex == 0 then st
    else
      var id := ItemIds[st.currentIndex - 1];
      var back := st.(currentIndex := st.currentIndex - 1);
      if id in st.liked then back.(liked := RemoveAll(st.liked, id))
      else if id in st.disliked then back.(disliked := RemoveAll(st.disliked, id))
      else back
  }

  /** The restart button, which is only rendered on the last item. */
  function Restarted(st: SwipeState): SwipeState
  {
    if st.currentIndex == LastIndex then st.(currentIndex := 0) else st
  }

  /** The info button. */
  function InfoToggled(st: SwipeState): SwipeState
  {
    st.(showInfo := !st.showInfo)
  }

  datatype Event = Swipe(liked: bool) | PreviousClick | RestartClick | InfoClick

  function Step(st: SwipeState, ev: Event): SwipeState
    requires st.currentIndex < |ItemIds|
  {
    match ev
    case Swipe(liked) => Swiped(st, liked)
    case PreviousClick => Previous(st)
    case RestartClick => Restarted(st)
    case InfoClick => InfoToggled(st)
  }

  /** The progress bar value, `(currentIndex + 1) / length * 100`. */
  function Progress(index: nat): real
  {
    (index + 1) as real / |ItemIds| as real * 100.0
  }

  /** The index of the tip shown for the item at `index`. */
  function TipIndex(index: nat): (r: nat)
    ensures r < TipCount
  {
    index % TipCount
  }

  // ---------------------------------------------------------------------
  // Properties
  // ---------------------------------------------------------------------

  lemma InitialValid()
    ensures Valid(InitialSwipe)
  {
  }

  /** A swipe records the current id in exactly the list it chose and leaves the other as it was. */
  lemma SwipeRecordsInOneList(st: SwipeState, liked: bool)
    requires st.currentIndex < |ItemIds|
    ensures liked ==>
      Swiped(st, liked).liked == st.liked + [ItemIds[st.currentIndex]] &&
      Swiped(st, liked).disliked == st.disliked
    ensures !liked ==>
      Swiped(st, liked).disliked == st.disliked + [ItemIds[st.currentIndex]] &&
      Swiped(st, liked).liked == st.liked
    ensures Swiped(st, liked).showInfo == st.showInfo
  {
  }

  /**
   * A swipe advances by exactly one and clears the exit direction, except on
   * the last item where the cursor stays and the direction stays set.
   */
  lemma SwipeAdvances(st: SwipeState, liked: bool)
    requires st.currentIndex < |ItemIds|
    ensures st.currentIndex < LastIndex ==> Swiped(st, liked).currentIndex == st.currentIndex + 1
    ensures st.currentIndex == LastIndex ==> Swiped(st, liked).currentIndex == LastIndex
    ensures Swiped(st, liked).currentIndex < |ItemIds|
    ensures Swiped(st, liked).direction ==
      (if st.currentIndex < LastIndex then None else Some(if liked then Right else Left))
  {
  }

  /** Swiping twice on the last item records its id twice: the lists are not sets. */
  lemma LastItemSwipedTwice(st: SwipeState)
    requires st.currentIndex == LastIndex
    ensures Swiped(Swiped(st, true), true).liked == st.liked + [5, 5]
    ensures Count(Swiped(Swiped(st, true), true).liked, 5) == Count(st.liked, 5) + 2
  {
    var once := Swiped(st, true);
    assert once.liked == st.liked + [5];
    assert Swiped(once, true).liked == st.liked + [5] + [5];
    assert st.liked + [5] + [5] == st.liked + [5, 5];
    CountAppend(st.liked, [5, 5], 5);
    assert [5, 5][1..] == [5];
    assert Count([5, 5], 5) == 2;
  }

  /** Previous on the first item does nothing. */
  lemma PreviousAtStart(st: SwipeState)
    requires st.currentIndex == 0
    ensures Previous(st) == st
  {
  }

  /**
   * Previous from item i > 0 moves to item i - 1 and removes every occurrence
   * of that item's id from the liked list when it is there, else from the
   * disliked list; at most one list changes, and the direction and the info
   * panel are left alone.
   */
  lemma PreviousForgets(st: SwipeState)
    requires 0 < st.currentIndex < |ItemIds|
    ensures Previous(st).currentIndex == st.currentIndex - 1
    ensures var id := ItemIds[st.currentIndex - 1];
      if id in st.liked then
        Previous(st).liked == RemoveAll(st.liked, id) && Previous(st).disliked == st.disliked
      else
        Previous(st).liked == st.liked && Previous(st).disliked == RemoveAll(st.disliked, id)
    ensures Previous(st).liked == st.liked || Previous(st).disliked == st.disliked
    ensures ItemIds[st.currentIndex - 1] !in Previous(st).liked
    ensures Previous(st).direction == st.direction && Previous(st).showInfo == st.showInfo
  {
    var id := ItemIds[st.currentIndex - 1];
    if id !in st.liked && id !in st.disliked {
      RemoveAbsent(st.disliked, id);
    }
  }

  /**
   * Previous undoes a swipe that moved on from an item not yet rated: the
   * lists and the cursor are as before the swipe, and the direction is cleared.
   */
  lemma PreviousUndoesSwipe(st: SwipeState, liked: bool)
    requires st.currentIndex < LastIndex
    requires ItemIds[st.currentIndex] !in st.liked && ItemIds[st.currentIndex] !in st.disliked
    ensures Previous(Swiped(st, liked)) == st.(direction := None)
  {
    var id := ItemIds[st.currentIndex];
    if liked {
      RemoveAppended(st.liked, id);
    } else {
      RemoveAppended(st.disliked, id);
    }
  }

  /** Restart (on the last item) returns to the first item and keeps both lists. */
  lemma RestartKeepsRatings(st: SwipeState)
    requires st.currentIndex == LastIndex
    ensures Restarted(st).currentIndex == 0
    ensures Restarted(st).liked == st.liked && Restarted(st).disliked == st.disliked
  {
  }

  /** Every handler keeps the session invariant. */
  lemma StepValid(st: SwipeState, ev: Event)
    requires Valid(st)
    ensures Valid(Step(st, ev))
  {
    match ev
    case Swipe(liked) =>
      var id := ItemIds[st.currentIndex];
      assert id in ItemIds;
      var r := Swiped(st, liked);
      assert r.liked == st.liked || r.liked == st.liked + [id];
      assert r.disliked == st.disliked || r.disliked == st.disliked + [id];
    case PreviousClick =>
      if st.currentIndex > 0 {
        var id := ItemIds[st.currentIndex - 1];
        var r := Previous(st);
        forall i | 0 <= i < |r.liked| ensures r.liked[i] in ItemIds {
          if r.liked != st.liked {
            SubsequenceMembers(r.liked, st.liked, r.liked[i]);
          }
        }
        forall i | 0 <= i < |r.disliked| ensures r.disliked[i] in ItemIds {
          if r.disliked != st.disliked {
            SubsequenceMembers(r.disliked, st.disliked, r.disliked[i]);
          }
        }
      }
    case RestartClick =>
    case InfoClick =>
  }

  /** A sequence of deck events from a valid deck; every one of them keeps the deck valid. */
  function Run(st: SwipeState, evs: seq<Event>): (r: SwipeState)
    requires Valid(st)
    ensures Valid(r)
    decreases |evs|
  {
    if evs == [] then st
    else
      StepValid(st, evs[0]);
      Run(Step(st, evs[0]), evs[1..])
  }

  /** The progress bar lies in (0, 100] and is full exactly on the last item. */
  lemma ProgressBounds(index: nat)
    requires index < |ItemIds|
    ensures 0.0 < Progress(index) <= 100.0
    ensures Progress(index) == 100.0 <==> index == LastIndex
  {
  }

  // ---------------------------------------------------------------------
  // The page component
  // ---------------------------------------------------------------------

  class SwipeSession {
    var currentIndex: nat
    var likedItems: seq<nat>
    var dislikedItems: seq<nat>
    var direction: Option<Direction>
    var showInfo: bool

    function State(): SwipeState
      reads this
    {
      SwipeState(currentIndex, likedItems, dislikedItems, direction, showInfo)
    }

    constructor ()
      ensures State() == InitialSwipe && Valid(State())
    {
      currentIndex := 0;
      likedItems := [];
      dislikedItems := [];
      direction := None;
      showInfo := false;
    }

    /** `handleSwipe` and its deferred callback, run as one step. */
    method HandleSwipe(liked: bool)
      requires Valid(State())
      modifies this
      ensures State() == Swiped(old(State()), liked) && Valid(State())
    {
      StepValid(State(), Swipe(liked));
      direction := Some(if liked then Right else Left);
      var id := ItemIds[currentIndex];
      if liked {
        likedItems := likedItems + [id];
      } else {
        dislikedItems := dislikedItems + [id];
      }
      if currentIndex < LastIndex {
        currentIndex := currentIndex + 1;
        direction := None;
      }
    }

    method HandlePrevious()
      requires Valid(State())
      modifies this
      ensures State() == Previous(old(State())) && Valid(State())
    {
      StepValid(State(), PreviousClick);
      if currentIndex > 0 {
        currentIndex := currentIndex - 1;
        var id := ItemIds[currentIndex];
        if id in likedItems {
          likedItems := RemoveAll(likedItems, id);
        } else if id in dislikedItems {
          dislikedItems := RemoveAll(dislikedItems, id);
        }
      }
    }

    method Restart()
      requires Valid(State())
      modifies this
      ensures State() == Restarted(old(State())) && Valid(State())
    {
      StepValid(State(), RestartClick);
      if currentIndex == LastIndex {
        currentIndex := 0;
      }
    }

    method ToggleInfo()
      requires Valid(State())
      modifies this
      ensures State() == InfoToggled(old(State())) && Valid(State())
    {
      showInfo := !showInfo;
    }
  }
}

=== FILE: feedpost.dfy ===
/**
 * A post in the social feed (src/components/FeedPost.tsx): the viewer's
 * like, super-like and save flags, the comments toggle, and the counters
 * rendered from the post's base counts and those flags.
 */
module FeedPost {
  import opened Wrappers

  /** The rating a poster needs before super-likes are offered. */
  const SuperLikeThreshold: real := 80.0

  /** The viewer's reactions to one post; all start false. */
  datatype Reactions = Reactions(liked: bool, superLiked: bool, saved: bool, showComments: bool)

  const NoReactions := Reactions(false, false, false, false)

  /** `handleLike`. */
  function Liked(r: Reactions): Reactions
  {
    r.(liked := !r.liked)
  }

  /** `handleSuperLike`: toggles only for a poster rated at least 80. */
  function SuperLiked(r: Reactions, rating: real): Reactions
  {
    if rating >= SuperLikeThreshold then r.(superLiked := !r.superLiked) else r
  }

  /** `handleSave`. */
  function Saved(r: Reactions): Reactions
  {
    r.(saved := !r.saved)
  }

  /** `handleToggleComments`: the new reactions, and whether `onComment` is called. */
  function CommentsToggled(r: Reactions, hasOnComment: bool): (Reactions, bool)
  {
    (r.(showComments := !r.showComments), hasOnComment && !r.showComments)
  }

  /** The super-like button is rendered only for a poster rated at least 80. */
  predicate SuperLikeButtonShown(rating: real)
  {
    rating >= SuperLikeThreshold
  }

  /** A base count plus the viewer's own contribution. */
  function WithOwn(base: int, own: bool): int
  {
    base + (if own then 1 else 0)
  }

  /** The counter line: likes always, then the super and saves segments when positive. */
  datatype CounterLine = CounterLine(likes: int, superSegment: Option<int>, savesSegment: Option<int>)

  function PositiveSegment(n: int): (r: Option<int>)
  {
    if n > 0 then Some(n) else None
  }

  function Counters(likes: int, superLikes: int, saves: int, r: Reactions): CounterLine
  {
    CounterLine(WithOwn(likes, r.liked),
                PositiveSegment(WithOwn(superLikes, r.superLiked)),
                PositiveSegment(WithOwn(saves, r.saved)))
  }

  /** The comment list is shown when toggled open and there is at least one comment. */
  predicate CommentsShown(r: Reactions, commentCount: nat)
  {
    r.showComments && commentCount > 0
  }

  /** The noun after the comment count. */
  function CommentNoun(n: nat): string
  {
    if n != 1 then "comments" else "comment"
  }

  // ---------------------------------------------------------------------
  // Properties
  // ---------------------------------------------------------------------

  /** Like and save flip their own flag only, so doing either twice restores the reactions. */
  lemma LikeAndSaveToggle(r: Reactions)
    ensures Liked(r) == r.(liked := !r.liked) && Liked(r).liked != r.liked
    ensures Saved(r) == r.(saved := !r.saved) && Saved(r).saved != r.saved
    ensures Liked(Liked(r)) == r && Saved(Saved(r)) == r
  {
  }

  /**
   * Super-like flips its flag exactly when the poster is rated at least 80,
   * which is exactly when its button is rendered, and changes nothing else.
   */
  lemma SuperLikeGated(r: Reactions, rating: real)
    ensures SuperLiked(r, rating) != r <==> SuperLikeButtonShown(rating)
    ensures SuperLiked(r, rating).superLiked != r.superLiked <==> rating >= 80.0
    ensures SuperLiked(r, rating) == r.(superLiked := SuperLiked(r, rating).superLiked)
    ensures SuperLiked(SuperLiked(r, rating), rating) == r
  {
  }

  /** `onComment` is called only when it is supplied and the comments go from hidden to shown. */
  lemma CommentCallbackOnOpen(r: Reactions, hasOnComment: bool)
    ensures CommentsToggled(r, hasOnComment).1 <==> hasOnComment && CommentsToggled(r, hasOnComment).0.showComments
    ensures CommentsToggled(r, hasOnComment).0 == r.(showComments := !r.showComments)
  {
  }

  /** A like adds one to the displayed count and an unlike takes it away again. */
  lemma LikeMovesCountByOne(likes: int, superLikes: int, saves: int, r: Reactions)
    ensures Counters(likes, superLikes, saves, Liked(r)).likes ==
      Counters(likes, superLikes, saves, r).likes + (if r.liked then -1 else 1)
    ensures Counters(likes, superLikes, saves, r).likes >= likes
    ensures Counters(likes, superLikes, saves, Liked(r)).superSegment == Counters(likes, superLikes, saves, r).superSegment
    ensures Counters(likes, superLikes, saves, Liked(r)).savesSegment == Counters(likes, superLikes, saves, r).savesSegment
  {
  }

  /** Each optional segment appears exactly when its total, including the viewer, is positive, and then shows it. */
  lemma SegmentsShownIffPositive(likes: int, superLikes: int, saves: int, r: Reactions)
    ensures Counters(likes, superLikes, saves, r).superSegment.Some? <==> superLikes + (if r.superLiked then 1 else 0) > 0
    ensures Counters(likes, superLikes, saves, r).savesSegment.Some? <==> saves + (if r.saved then 1 else 0) > 0
    ensures Counters(likes, superLikes, saves, r).superSegment.Some? ==>
      Counters(likes, superLikes, saves, r).superSegment.value == superLikes + (if r.superLiked then 1 else 0)
    ensures Counters(likes, superLikes, saves, r).savesSegment.Some? ==>
      Counters(likes, superLikes, saves, r).savesSegment.value == saves + (if r.saved then 1 else 0)
  {
  }

  /** With no base saves, saving makes the saves segment appear and unsaving hides it. */
  lemma SaveShowsSegment(likes: int, superLikes: int, r: Reactions)
    requires !r.saved
    ensures Counters(likes, superLikes, 0, r).savesSegment == None
    ensures Counters(likes, superLikes, 0, Saved(r)).savesSegment == Some(1)
  {
  }

  /**
   * After the toggle the comment list is on screen exactly when it was hidden
   * before and the post has a comment; a post without comments never shows it.
   */
  lemma ToggleShowsComments(r: Reactions, hasOnComment: bool, commentCount: nat)
    ensures CommentsShown(CommentsToggled(r, hasOnComment).0, commentCount) <==> !r.showComments && commentCount > 0
    ensures commentCount == 0 ==> !CommentsShown(r, commentCount)
    ensures CommentsShown(r, commentCount) ==> !CommentsShown(CommentsToggled(r, hasOnComment).0, commentCount)
  {
  }

  /** The noun is singular exactly for one comment. */
  lemma CommentNounPlural(n: nat)
    ensures CommentNoun(n) == "comment" <==> n == 1
    ensures CommentNoun(n) == "comments" <==> n != 1
  {
  }

  // ---------------------------------------------------------------------
  // The post component
  // ---------------------------------------------------------------------

  class FeedPostView {
    const rating: real
    const likes: int
    const superLikes: int
    const saves: int
    const commentCount: nat
    var liked: bool
    var superLiked: bool
    var saved: bool
    var showComments: bool

    function State(): Reactions
      reads this
    {
      Reactions(liked, superLiked, saved, showComments)
    }

    constructor (rating: real, likes: int, superLikes: int, saves: int, commentCount: nat)
      ensures State() == NoReactions
      ensures this.rating == rating && this.likes == likes && this.superLikes == superLikes
      ensures this.saves == saves && this.commentCount == commentCount
    {
      this.rating := rating;
      this.likes := likes;
      this.superLikes := superLikes;
      this.saves := saves;
      this.commentCount := commentCount;
      liked := false;
      superLiked := false;
      saved := false;
      showComments := false;
    }

    method HandleLike()
      modifies this
      ensures State() == Liked(old(State()))
      ensures Rendered().likes == old(Rendered().likes) + (if old(liked) then -1 else 1)
      ensures Rendered().superSegment == old(Rendered().superSegment)
      ensures Rendered().savesSegment == old(Rendered().savesSegment)
    {
      liked := !liked;
    }

    method HandleSuperLike()
      modifies this
      ensures State() == SuperLiked(old(State()), rating)
    {
      if rating >= SuperLikeThreshold {
        superLiked := !superLiked;
      }
    }

    method HandleSave()
      modifies this
      ensures State() == Saved(old(State()))
      ensures Rendered().likes == old(Rendered().likes)
      ensures Rendered().superSegment == old(Rendered().superSegment)
    {
      saved := !saved;
    }

    /** Returns whether the optional `onComment` callback is invoked. */
    method HandleToggleComments(hasOnComment: bool) returns (calledOnComment: bool)
      modifies this
      ensures (State(), calledOnComment) == CommentsToggled(old(State()), hasOnComment)
      ensures CommentsShown(State(), commentCount) <==> !old(showComments) && commentCount > 0
    {
      var wasShown := showComments;
      showComments := !showComments;
      calledOnComment := hasOnComment && !wasShown;
    }

    /** The counter line as rendered now: each count is the prop plus one for the viewer's own reaction. */
    function Rendered(): (c: CounterLine)
      reads this
      ensures c.likes == likes + (if liked then 1 else 0)
      ensures c.superSegment.Some? <==> superLikes + (if superLiked then 1 else 0) > 0
      ensures c.savesSegment.Some? <==> saves + (if saved then 1 else 0) > 0
      ensures c.superSegment.Some? ==> c.superSegment.value == superLikes + (if superLiked then 1 else 0)
      ensures c.savesSegment.Some? ==> c.savesSegment.value == saves + (if saved then 1 else 0)
    {
      SegmentsShownIffPositive(likes, superLikes, saves, State());
      Counters(likes, superLikes, saves, State())
    }
  }
}

=== FILE: lookbook.dfy ===
/**
 * The lookbook page (src/pages/LookbookPage.tsx): past outfits sorted on a
 * copy by score or by date, newest or highest first, and the details dialog
 * of the outfit clicked.
 */
module Lookbook {
  import opened Wrappers
  import opened Seqs

  /**
   * An analysed outfit. The date is kept as its day number (yyyymmdd), the
   * value whose order the parsed timestamp has.
   */
  datatype Outfit = Outfit(id: nat, score: real, date: int)

  /** The four mock outfits, in their stored order. */
  const MockLookbook: seq<Outfit> := [
    Outfit(1, 9.2, 20250401),
    Outfit(2, 8.5, 20250328),
    Outfit(3, 7.8, 20250325),
    Outfit(4, 8.9, 20250320)
  ]

  /** The two orders the select offers. */
  datatype SortOrder = ByScore | ByDate

  /** The select's value: "score" sorts by score and any other value by date. */
  function OrderOf(sortBy: string): SortOrder
  {
    if sortBy == "score" then ByScore else ByDate
  }

  /** The value the comparator subtracts. */
  function Key(order: SortOrder, o: Outfit): real
  {
    match order
    case ByScore => o.score
    case ByDate => o.date as real
  }

  /** Highest key first: no key is below the next one. */
  predicate SortedDesc(order: SortOrder, s: seq<Outfit>)
  {
    forall i :: 0 <= i < |s| - 1 ==> Key(order, s[i]) >= Key(order, s[i + 1])
  }

  /**
   * Insert `x` into a list sorted highest first, ahead of every element
   * whose key is not above its own.
   */
  function Insert(order: SortOrder, x: Outfit, s: seq<Outfit>): (r: seq<Outfit>)
    requires SortedDesc(order, s)
    ensures |r| == |s| + 1
    ensures r[0] == x || (s != [] && r[0] == s[0])
    ensures SortedDesc(order, r)
  {
    if s == [] then [x]
    else if Key(order, x) >= Key(order, s[0]) then
      [x] + s
    else
      var rest := Insert(order, x, s[1..]);
      assert rest[0] == x || rest[0] == s[1];
      [s[0]] + rest
  }

  /** Inserting adds `x` and loses nothing. */
  lemma {:induction false} InsertIsPermutation(order: SortOrder, x: Outfit, s: seq<Outfit>)
    requires SortedDesc(order, s)
    ensures multiset(Insert(order, x, s)) == multiset(s) + multiset{x}
  {
    if s != [] && Key(order, x) < Key(order, s[0]) {
      InsertIsPermutation(order, x, s[1..]);
      assert s == [s[0]] + s[1..];
    }
  }

  /** In a list sorted highest first, every key is at least every later key. */
  lemma {:induction false} SortedDescPairwise(order: SortOrder, s: seq<Outfit>, i: int, j: int)
    requires SortedDesc(order, s) && 0 <= i <= j < |s|
    ensures Key(order, s[i]) >= Key(order, s[j])
    decreases j - i
  {
    if i < j {
      SortedDescPairwise(order, s, i + 1, j);
    }
  }

  /**
   * `[...mockLookbook].sort(comparator)`: a sorted copy. The comparator
   * returns `b - a` on the keys, so higher keys come first, and outfits with
   * equal keys keep their relative order as the sort is stable.
   */
  function Sort(order: SortOrder, s: seq<Outfit>): (r: seq<Outfit>)
    ensures SortedDesc(order, r)
  {
    if s == [] then [] else Insert(order, s[0], Sort(order, s[1..]))
  }

  /** The list the page renders for the select's value. */
  function SortedLookbook(sortBy: string): seq<Outfit>
  {
    Sort(OrderOf(sortBy), MockLookbook)
  }

  /** The outfits whose key is `k`, in order. */
  function WithKey(order: SortOrder, s: seq<Outfit>, k: real): seq<Outfit>
  {
    Filter(s, (o: Outfit) => Key(order, o) == k)
  }

  // ---------------------------------------------------------------------
  // Properties of the sort
  // ---------------------------------------------------------------------

  /** The sorted copy holds exactly the outfits of the list, each as often. */
  lemma {:induction false} SortIsPermutation(order: SortOrder, s: seq<Outfit>)
    ensures multiset(Sort(order, s)) == multiset(s)
    ensures |Sort(order, s)| == |s|
  {
    if s != [] {
      SortIsPermutation(order, s[1..]);
      InsertIsPermutation(order, s[0], Sort(order, s[1..]));
      assert s == [s[0]] + s[1..];
    }
  }

  /** Inserting `x` adds it to its own key class, at the front, and leaves the others. */
  lemma {:induction false} InsertWithKey(order: SortOrder, x: Outfit, s: seq<Outfit>, k: real)
    requires SortedDesc(order, s)
    ensures WithKey(order, Insert(order, x, s), k) ==
      (if Key(order, x) == k then [x] + WithKey(order, s, k) else WithKey(order, s, k))
  {
    var eq := (o: Outfit) => Key(order, o) == k;
    if s == [] {
      assert Insert(order, x, s) == [x];
      assert [x][1..] == [];
    } else if Key(order, x) >= Key(order, s[0]) {
      var r := [x] + s;
      assert r[0] == x && r[1..] == s;
    } else {
      var rest := Insert(order, x, s[1..]);
      var r := [s[0]] + rest;
      assert r[0] == s[0] && r[1..] == rest;
      InsertWithKey(order, x, s[1..], k);
      if Key(order, x) == k {
        // s[0] has a higher key than x, so it is not in x's class
        assert !eq(s[0]);
        assert Filter(r, eq) == Filter(rest, eq);
        assert Filter(s, eq) == Filter(s[1..], eq);
      }
    }
  }

  /** The sort is stable: within every key, outfits keep their original order. */
  lemma {:induction false} SortIsStable(order: SortOrder, s: seq<Outfit>, k: real)
    ensures WithKey(order, Sort(order, s), k) == WithKey(order, s, k)
  {
    if s != [] {
      SortIsStable(order, s[1..], k);
      InsertWithKey(order, s[0], Sort(order, s[1..]), k);
    }
  }

  /** Sorting a list that is already sorted returns it unchanged. */
  lemma {:induction false} SortOfSorted(order: SortOrder, s: seq<Outfit>)
    requires SortedDesc(order, s)
    ensures Sort(order, s) == s
  {
    if s != [] {
      SortOfSorted(order, s[1..]);
      var t := s[1..];
      assert Sort(order, s) == Insert(order, s[0], t);
      if t != [] {
        assert Key(order, s[0]) >= Key(order, t[0]);
      }
      assert [s[0]] + t == s;
    }
  }

  /** The empty-state message is shown exactly when there is nothing to list. */
  predicate EmptyStateShown(sorted: seq<Outfit>)
  {
    |sorted| == 0
  }

  lemma EmptyStateIffNoOutfits(order: SortOrder, s: seq<Outfit>)
    ensures EmptyStateShown(Sort(order, s)) <==> s == []
  {
    SortIsPermutation(order, s);
  }

  /** By date the stored mock list is already newest first, so it is shown as stored. */
  lemma MockByDate(sortBy: string)
    requires sortBy != "score"
    ensures SortedLookbook(sortBy) == MockLookbook
  {
    SortOfSorted(ByDate, MockLookbook);
  }

  /** One step of the sort: the head is inserted into the sorted tail. */
  lemma SortCons(order: SortOrder, x: Outfit, s: seq<Outfit>)
    ensures Sort(order, [x] + s) == Insert(order, x, Sort(order, s))
  {
    assert ([x] + s)[0] == x && ([x] + s)[1..] == s;
  }

  /** Inserting below the head keeps the head in front. */
  lemma InsertBelow(order: SortOrder, x: Outfit, y: Outfit, s: seq<Outfit>)
    requires SortedDesc(order, s) && SortedDesc(order, [y] + s) && Key(order, x) < Key(order, y)
    ensures Insert(order, x, [y] + s) == [y] + Insert(order, x, s)
  {
    assert ([y] + s)[0] == y && ([y] + s)[1..] == s;
  }

  lemma SortTwo(order: SortOrder, c: Outfit, d: Outfit)
    requires Key(order, d) > Key(order, c)
    ensures Sort(order, [c, d]) == [d, c]
  {
    SortCons(order, d, []);
    assert Sort(order, [d]) == [d] by { assert [d] == [d] + []; }
    SortCons(order, c, [d]);
    InsertBelow(order, c, d, []);
    assert [c, d] == [c] + [d];
  }

  lemma SortThree(order: SortOrder, b: Outfit, c: Outfit, d: Outfit)
    requires Key(order, d) > Key(order, b) > Key(order, c)
    ensures Sort(order, [b, c, d]) == [d, b, c]
  {
    SortTwo(order, c, d);
    SortCons(order, b, [c, d]);
    InsertBelow(order, b, d, [c]);
    assert [b, c, d] == [b] + [c, d];
  }

  /** Four outfits with keys a > d > b > c are sorted as a, d, b, c. */
  lemma SortFour(order: SortOrder, a: Outfit, b: Outfit, c: Outfit, d: Outfit)
    requires Key(order, a) > Key(order, d) > Key(order, b) > Key(order, c)
    ensures Sort(order, [a, b, c, d]) == [a, d, b, c]
  {
    SortThree(order, b, c, d);
    SortCons(order, a, [b, c, d]);
    assert [a, b, c, d] == [a] + [b, c, d];
  }

  /** By score the mock outfits are shown as 1, 4, 2, 3. */
  lemma MockByScore()
    ensures SortedLookbook("score") == [MockLookbook[0], MockLookbook[3], MockLookbook[1], MockLookbook[2]]
  {
    var m := MockLookbook;
    assert m == [m[0], m[1], m[2], m[3]];
    SortFour(ByScore, m[0], m[1], m[2], m[3]);
  }

  // ---------------------------------------------------------------------
  // The page component
  // ---------------------------------------------------------------------

  class LookbookPage {
    var sortBy: string
    var selectedOutfit: Option<Outfit>

    constructor ()
      ensures sortBy == "date" && selectedOutfit == None
    {
      sortBy := "date";
      selectedOutfit := None;
    }

    /** The details dialog is open exactly while an outfit is selected. */
    function DialogOpen(): bool
      reads this
    {
      selectedOutfit.Some?
    }

    method SetSortBy(value: string)
      modifies this
      ensures sortBy == value && selectedOutfit == old(selectedOutfit)
    {
      sortBy := value;
    }

    /** `handleOutfitClick`. */
    method HandleOutfitClick(outfit: Outfit)
      modifies this
      ensures selectedOutfit == Some(outfit) && DialogOpen()
      ensures sortBy == old(sortBy)
    {
      selectedOutfit := Some(outfit);
    }

    /** `handleDialogClose`. */
    method HandleDialogClose()
      modifies this
      ensures selectedOutfit == None && !DialogOpen()
      ensures sortBy == old(sortBy)
    {
      selectedOutfit := None;
    }
  }
}

=== FILE: messages.dfy ===
/**
 * The conversation list (src/pages/MessagesPage.tsx): conversations whose
 * partner's name matches the search box, and the route each one opens.
 */
module Messages {
  import opened Text
  import opened Seqs

  datatype Conversation = Conversation(id: string, userName: string)

  /** The five mock conversations, in display order. */
  const Conversations: seq<Conversation> := [
    Conversation("1", "Emma Wilson"),
    Conversation("2", "Liam Chen"),
    Conversation("3", "TUFF StyleBot"),
    Conversation("4", "Alex Kim"),
    Conversation("5", "Isabella Lopez")
  ]

  /** The filter callback for a search query. */
  function Matcher(query: string): Conversation -> bool
  {
    (c: Conversation) => IncludesIgnoringCase(c.userName, query)
  }

  /** The conversations of `list` whose partner's name contains the query, ignoring case. */
  function FilterByName(list: seq<Conversation>, query: string): seq<Conversation>
  {
    Filter(list, Matcher(query))
  }

  /** `filteredConversations`. */
  function FilteredConversations(query: string): seq<Conversation>
  {
    FilterByName(Conversations, query)
  }

  /** The list shown keeps the stored order and only drops conversations. */
  lemma FilteredIsSubsequence(query: string)
    ensures IsSubsequence(FilteredConversations(query), Conversations)
    ensures |FilteredConversations(query)| <= |Conversations|
  {
    FilterIsSubsequence(Conversations, Matcher(query));
  }

  /** A conversation is listed exactly when it is one of the mock ones and its name matches. */
  lemma FilteredMembership(query: string, c: Conversation)
    ensures c in FilteredConversations(query) <==> c in Conversations && IncludesIgnoringCase(c.userName, query)
  {
    FilterMembership(Conversations, Matcher(query), c);
  }

  /** An empty search box lists every conversation. */
  lemma EmptyQueryListsAll()
    ensures FilteredConversations("") == Conversations
  {
    forall i | 0 <= i < |Conversations| ensures Matcher("")(Conversations[i]) {
      EmptyQueryMatches(Conversations[i].userName);
    }
    FilterKeepsAll(Conversations, Matcher(""));
  }

  /** Filtering the filtered list again with the same query changes nothing. */
  lemma FilterIdempotentForQuery(list: seq<Conversation>, query: string)
    ensures FilterByName(FilterByName(list, query), query) == FilterByName(list, query)
  {
    FilterIdempotent(list, Matcher(query));
  }

  /** The search ignores case: "EMMA" lists Emma Wilson's conversation. */
  lemma UpperCaseQueryFindsEmma()
    ensures Conversations[0] in FilteredConversations("EMMA")
  {
    assert ToLower("EMMA") == "emma";
    var name := ToLower("Emma Wilson");
    assert name[..4] == "emma";
    assert OccursAt(name, "emma", 0);
    FilteredMembership("EMMA", Conversations[0]);
  }

  /** `handleOpenChat`: the route of a conversation. */
  function ChatPath(conversationId: string): (path: string)
    ensures StartsWith(path, "/messages/")
    ensures path[|"/messages/"|..] == conversationId
  {
    "/messages/" + conversationId
  }

  /** Different conversations open different routes. */
  lemma ChatPathInjective(a: string, b: string)
    requires ChatPath(a) == ChatPath(b)
    ensures a == b
  {
    assert a == ChatPath(a)[|"/messages/"|..];
  }

  /** `handleNewMessage`'s route. */
  const NewMessagePath := "/messages/new"

  /** The new-message route is the route a conversation with id "new" would open. */
  lemma NewMessageRouteShared()
    ensures NewMessagePath == ChatPath("new")
    ensures forall i :: 0 <= i < |Conversations| ==> ChatPath(Conversations[i].id) != NewMessagePath
  {
    forall i | 0 <= i < |Conversations| ensures ChatPath(Conversations[i].id) != NewMessagePath {
      assert |Conversations[i].id| == 1;
    }
  }
}

=== FILE: newpostmodal.dfy ===
/**
 * The new-post form (src/components/NewPostModal.tsx): an image chosen from
 * a file, four optional tags and a caption; posting needs an image and
 * clears the form.
 */
module NewPostModal {
  import opened Wrappers
  import opened Text

  /** The form's fields; the image is the data URL of the chosen file. */
  datatype PostForm = PostForm(
    image: Option<string>,
    caption: string,
    season: string,
    occasion: string,
    brand: string,
    style: string)

  const EmptyForm := PostForm(None, "", "", "", "", "")

  /** A file picked in the file input, by its MIME type. */
  datatype File = File(mimeType: string)

  /** What a file selection led to. */
  datatype FileOutcome = NoFile | Rejected | Loaded

  /** JavaScript truthiness of the image: neither null nor the empty string. */
  predicate HasImage(f: PostForm)
  {
    f.image.Some? && f.image.value != ""
  }

  /** Only files whose type starts with "image/" are read. */
  predicate Accepted(file: File)
  {
    StartsWith(file.mimeType, "image/")
  }

  /**
   * `handleFileChange` together with the reader's load callback, which
   * stores `dataUrl`, the file read as a data URL.
   */
  function FileChosen(f: PostForm, file: Option<File>, dataUrl: string): (PostForm, FileOutcome)
  {
    if file.None? then (f, NoFile)
    else if !Accepted(file.value) then (f, Rejected)
    else (f.(image := Some(dataUrl)), Loaded)
  }

  /** `handleRemoveImage`. */
  function ImageRemoved(f: PostForm): PostForm
  {
    f.(image := None)
  }

  /** `handleSubmit`: the new form and whether `onClose` is called. */
  function Submitted(f: PostForm): (PostForm, bool)
  {
    if !HasImage(f) then (f, false) else (EmptyForm, true)
  }

  // ---------------------------------------------------------------------
  // Properties
  // ---------------------------------------------------------------------

  /** No file, or a file that is not an image, leaves the form as it was; an image file sets only the image. */
  lemma FileChoiceRules(f: PostForm, file: Option<File>, dataUrl: string)
    ensures FileChosen(f, file, dataUrl).1 == NoFile <==> file.None?
    ensures FileChosen(f, file, dataUrl).1 == Rejected <==> file.Some? && !StartsWith(file.value.mimeType, "image/")
    ensures FileChosen(f, file, dataUrl).1 != Loaded ==> FileChosen(f, file, dataUrl).0 == f
    ensures FileChosen(f, file, dataUrl).1 == Loaded ==>
      FileChosen(f, file, dataUrl).0 == f.(image := Some(dataUrl))
  {
  }

  /** A JPEG is read and a PDF is turned away. */
  lemma MimeExamples(f: PostForm, dataUrl: string)
    ensures FileChosen(f, Some(File("image/jpeg")), dataUrl).1 == Loaded
    ensures FileChosen(f, Some(File("application/pdf")), dataUrl) == (f, Rejected)
  {
    assert "image/jpeg"[..6] == "image/";
    assert "application/pdf"[0] != "image/"[0];
  }

  /** Without an image, posting changes nothing and does not close the dialog. */
  lemma SubmitNeedsImage(f: PostForm)
    ensures !Submitted(f).1 <==> !HasImage(f)
    ensures !HasImage(f) ==> Submitted(f).0 == f
  {
  }

  /** With an image, posting closes the dialog and clears every field. */
  lemma SubmitResetsForm(f: PostForm)
    requires HasImage(f)
    ensures Submitted(f).1
    ensures Submitted(f).0 == EmptyForm
    ensures !HasImage(Submitted(f).0)
  {
  }

  /** Removing the image clears only the image, so the form cannot be posted until a new one is chosen. */
  lemma RemoveImageBlocksSubmit(f: PostForm)
    ensures ImageRemoved(f) == f.(image := None)
    ensures Submitted(ImageRemoved(f)) == (ImageRemoved(f), false)
  {
  }

  /** After a successful post the form is as it was when first shown. */
  lemma SubmitReturnsToInitial(f: PostForm)
    requires Submitted(f).1
    ensures Submitted(f).0 == EmptyForm
    ensures Submitted(Submitted(f).0) == (EmptyForm, false)
  {
  }

  // ---------------------------------------------------------------------
  // The form component
  // ---------------------------------------------------------------------

  class NewPostForm {
    var image: Option<string>
    var caption: string
    var season: string
    var occasion: string
    var brand: string
    var style: string

    function State(): PostForm
      reads this
    {
      PostForm(image, caption, season, occasion, brand, style)
    }

    constructor ()
      ensures State() == EmptyForm
    {
      image := None;
      caption := "";
      season := "";
      occasion := "";
      brand := "";
      style := "";
    }

    method HandleFileChange(file: Option<File>, dataUrl: string) returns (outcome: FileOutcome)
      modifies this
      ensures (State(), outcome) == FileChosen(old(State()), file, dataUrl)
    {
      if file.None? {
        return NoFile;
      }
      if !StartsWith(file.value.mimeType, "image/") {
        return Rejected;
      }
      image := Some(dataUrl);
      return Loaded;
    }

    method HandleRemoveImage()
      modifies this
      ensures State() == ImageRemoved(old(State()))
    {
      image := None;
    }

    /** Returns whether `onClose` is called. */
    method HandleSubmit() returns (closed: bool)
      modifies this
      ensures (State(), closed) == Submitted(old(State()))
    {
      if image.None? || image.value == "" {
        return false;
      }
      closed := true;
      image := None;
      caption := "";
      season := "";
      occasion := "";
      brand := "";
      style := "";
    }
  }
}

=== FILE: scoredisplay.dfy ===
/**
 * The score badge (src/components/ScoreDisplay.tsx): a score out of a
 * maximum (10 unless given), shown in green, amber or red by percentage.
 */
module ScoreDisplay {
  import opened Wrappers

  /** The maximum assumed when none is passed. */
  const DefaultMaxScore: real := 10.0

  const Green := "text-green-500"
  const Amber := "text-amber-500"
  const Red := "text-red-500"

  /**
   * A JavaScript number as the division can produce it: a finite value, or,
   * for a zero maximum, an infinity or NaN.
   */
  datatype Number = Finite(value: real) | PosInfinity | NegInfinity | NaN

  /** `percentage`: `score / maxScore * 100` under JavaScript division. */
  function Percentage(score: real, maxScore: real): (p: Number)
    ensures maxScore != 0.0 ==> p.Finite? && p.value * maxScore == score * 100.0
    ensures maxScore == 0.0 ==> (p == PosInfinity <==> score > 0.0) && (p == NegInfinity <==> score < 0.0)
    ensures maxScore == 0.0 && score == 0.0 ==> p == NaN
  {
    if maxScore != 0.0 then Finite(score / maxScore * 100.0)
    else if score > 0.0 then PosInfinity
    else if score < 0.0 then NegInfinity
    else NaN
  }

  /** JavaScript's `p >= bound` for a finite bound; every comparison with NaN is false. */
  predicate AtLeast(p: Number, bound: real)
  {
    match p
    case Finite(x) => x >= bound
    case PosInfinity => true
    case NegInfinity => false
    case NaN => false
  }

  /** `getColor`. */
  function GetColor(score: real, maxScore: real): (c: string)
    ensures c == Green || c == Amber || c == Red
  {
    var p := Percentage(score, maxScore);
    if AtLeast(p, 80.0) then Green
    else if AtLeast(p, 60.0) then Amber
    else Red
  }

  /** The colour with the optional maximum defaulted. */
  function DisplayColor(score: real, maxScore: Option<real>): string
  {
    GetColor(score, if maxScore.Some? then maxScore.value else DefaultMaxScore)
  }

  /** Green, amber and red rank 2, 1 and 0. */
  function Rank(c: string): nat
  {
    if c == Green then 2 else if c == Amber then 1 else 0
  }

  /** The three colours are different strings, so exactly one is chosen. */
  lemma ColorsDistinct()
    ensures Green != Amber && Green != Red && Amber != Red
  {
    assert Green[5] == 'g' && Amber[5] == 'a';
    assert |Green| != |Red| && |Amber| != |Red|;
  }

  /** Multiplying both sides by a positive maximum keeps a percentage comparison. */
  lemma PercentageAtLeast(score: real, maxScore: real, bound: real)
    requires maxScore > 0.0
    ensures AtLeast(Percentage(score, maxScore), bound) <==> score * 100.0 >= bound * maxScore
  {
    var x := score / maxScore * 100.0;
    assert x * maxScore == score * 100.0;
    if x >= bound {
      assert x * maxScore >= bound * maxScore;
    } else {
      assert x * maxScore < bound * maxScore;
    }
  }

  /** For a positive maximum the bands are at 80 % and 60 % of it. */
  lemma ColorBands(score: real, maxScore: real)
    requires maxScore > 0.0
    ensures GetColor(score, maxScore) == Green <==> score >= 0.8 * maxScore
    ensures GetColor(score, maxScore) == Amber <==> 0.6 * maxScore <= score < 0.8 * maxScore
    ensures GetColor(score, maxScore) == Red <==> score < 0.6 * maxScore
  {
    ColorsDistinct();
    PercentageAtLeast(score, maxScore, 80.0);
    PercentageAtLeast(score, maxScore, 60.0);
  }

  /** With the default maximum of 10: green from 8, amber from 6, red below. */
  lemma DefaultBands(score: real)
    ensures DisplayColor(score, None) == Green <==> score >= 8.0
    ensures DisplayColor(score, None) == Amber <==> 6.0 <= score < 8.0
    ensures DisplayColor(score, None) == Red <==> score < 6.0
  {
    ColorBands(score, DefaultMaxScore);
  }

  /** For a fixed positive maximum a higher score never gets a lower colour. */
  lemma ColorMonotone(s: real, t: real, maxScore: real)
    requires maxScore > 0.0 && s <= t
    ensures Rank(GetColor(s, maxScore)) <= Rank(GetColor(t, maxScore))
  {
    ColorBands(s, maxScore);
    ColorBands(t, maxScore);
    ColorsDistinct();
  }

  /** A zero maximum divides to an infinity or NaN: green for a positive score, red otherwise. */
  lemma ZeroMaxScore(score: real)
    ensures GetColor(score, 0.0) == (if score > 0.0 then Green else Red)
  {
  }
}

=== FILE: seqs.dfy ===
/**
 * Sequence helpers shared by the list views: `Array.prototype.filter`
 * and the order-preserving subsequence relation it satisfies.
 */
module Seqs {

  /** `s.filter(keep)`: the elements of `s` that `keep` accepts, in order. */
  function Filter<T>(s: seq<T>, keep: T -> bool): (r: seq<T>)
    ensures |r| <= |s|
    ensures forall i :: 0 <= i < |r| ==> keep(r[i])
  {
    if s == [] then []
    else if keep(s[0]) then [s[0]] + Filter(s[1..], keep)
    else Filter(s[1..], keep)
  }

  /** `a` can be obtained from `b` by deleting elements (order is kept). */
  predicate IsSubsequence<T(==)>(a: seq<T>, b: seq<T>)
    decreases |b|
  {
    a == [] ||
    (b != [] &&
     ((a[0] == b[0] && IsSubsequence(a[1..], b[1..])) || IsSubsequence(a, b[1..])))
  }

  /** Every element of a subsequence is an element of the whole. */
  lemma {:induction false} SubsequenceMembers<T>(a: seq<T>, b: seq<T>, x: T)
    requires IsSubsequence(a, b) && x in a
    ensures x in b
    decreases |b|
  {
    if a[0] == b[0] && IsSubsequence(a[1..], b[1..]) {
      if x != a[0] {
        assert x in a[1..];
        SubsequenceMembers(a[1..], b[1..], x);
      }
    } else {
      SubsequenceMembers(a, b[1..], x);
    }
  }

  /** Filtering keeps the order of the elements it keeps. */
  lemma {:induction false} FilterIsSubsequence<T>(s: seq<T>, keep: T -> bool)
    ensures IsSubsequence(Filter(s, keep), s)
  {
    if s != [] {
      FilterIsSubsequence(s[1..], keep);
      if keep(s[0]) {
        assert Filter(s, keep)[0] == s[0];
        assert Filter(s, keep)[1..] == Filter(s[1..], keep);
      }
    }
  }

  /** An element is in the filtered list exactly when it is in the list and accepted. */
  lemma {:induction false} FilterMembership<T>(s: seq<T>, keep: T -> bool, x: T)
    ensures x in Filter(s, keep) <==> x in s && keep(x)
  {
    if s != [] {
      FilterMembership(s[1..], keep, x);
      assert x in s <==> x == s[0] || x in s[1..];
    }
  }

  /** Filtering with a predicate that accepts every element returns the list itself. */
  lemma {:induction false} FilterKeepsAll<T>(s: seq<T>, keep: T -> bool)
    requires forall i :: 0 <= i < |s| ==> keep(s[i])
    ensures Filter(s, keep) == s
  {
    if s != [] {
      FilterKeepsAll(s[1..], keep);
      assert [s[0]] + s[1..] == s;
    }
  }

  /** Filtering twice with the same predicate changes nothing more. */
  lemma FilterIdempotent<T>(s: seq<T>, keep: T -> bool)
    ensures Filter(Filter(s, keep), keep) == Filter(s, keep)
  {
    FilterKeepsAll(Filter(s, keep), keep);
  }

  /** `s.filter(y => y !== x)`: every occurrence of `x` removed. */
  function RemoveAll<T(==)>(s: seq<T>, x: T): (r: seq<T>)
    ensures x !in r
    ensures forall i :: 0 <= i < |s| && s[i] != x ==> s[i] in r
    ensures IsSubsequence(r, s)
    ensures |r| == |s| - Count(s, x)
  {
    var keep := (y: T) => y != x;
    RemoveLength(s, x);
    FilterIsSubsequence(s, keep);
    forall i | 0 <= i < |s| ensures s[i] in Filter(s, keep) <==> s[i] != x {
      FilterMembership(s, keep, s[i]);
    }
    FilterMembership(s, keep, x);
    Filter(s, keep)
  }

  /** Filtering out `x` drops exactly its occurrences, no more and no fewer. */
  lemma {:induction false} RemoveLength<T>(s: seq<T>, x: T)
    ensures |Filter(s, (y: T) => y != x)| == |s| - Count(s, x)
  {
    if s != [] {
      RemoveLength(s[1..], x);
    }
  }

  /** Removing an element that does not occur leaves the list as it is. */
  lemma RemoveAbsent<T>(s: seq<T>, x: T)
    requires x !in s
    ensures RemoveAll(s, x) == s
  {
    FilterKeepsAll(s, (y: T) => y != x);
  }

  /** Filtering distributes over concatenation. */
  lemma {:induction false} FilterAppend<T>(a: seq<T>, b: seq<T>, keep: T -> bool)
    ensures Filter(a + b, keep) == Filter(a, keep) + Filter(b, keep)
  {
    if a == [] {
      assert a + b == b;
    } else {
      assert (a + b)[0] == a[0];
      assert (a + b)[1..] == a[1..] + b;
      FilterAppend(a[1..], b, keep);
    }
  }

  /** Removing the element just appended, when it did not occur before, undoes the append. */
  lemma RemoveAppended<T>(s: seq<T>, x: T)
    requires x !in s
    ensures RemoveAll(s + [x], x) == s
  {
    var keep := (y: T) => y != x;
    FilterAppend(s, [x], keep);
    RemoveAbsent(s, x);
    assert Filter([x], keep) == [];
  }

  /** Filtering keeps every occurrence of an accepted element and none of a rejected one. */
  lemma {:induction false} FilterCount<T>(s: seq<T>, keep: T -> bool, x: T)
    ensures Count(Filter(s, keep), x) == (if keep(x) then Count(s, x) else 0)
  {
    if s != [] {
      FilterCount(s[1..], keep, x);
      if keep(s[0]) {
        assert ([s[0]] + Filter(s[1..], keep))[1..] == Filter(s[1..], keep);
      }
    }
  }

  /** The number of occurrences of `x` in `s`. */
  function Count<T(==)>(s: seq<T>, x: T): nat
  {
    if s == [] then 0 else (if s[0] == x then 1 else 0) + Count(s[1..], x)
  }

  lemma {:induction false} CountAppend<T>(a: seq<T>, b: seq<T>, x: T)
    ensures Count(a + b, x) == Count(a, x) + Count(b, x)
  {
    if a != [] {
      assert (a + b)[1..] == a[1..] + b;
      CountAppend(a[1..], b, x);
    } else {
      assert a + b == b;
    }
  }
}

=== FILE: sharemodal.dfy ===
/**
 * The share dialog of a feed post (src/components/ShareModal.tsx): friends
 * matching the search box, the post's link, and a short caption preview.
 * Nothing is rendered without a post.
 */
module ShareModal {
  import opened Wrappers
  import opened Text
  import opened Seqs

  datatype Friend = Friend(id: string, name: string)

  /** The part of the post the dialog uses. */
  datatype Post = Post(id: string, caption: string)

  /** The five mock friends, in display order. */
  const Friends: seq<Friend> := [
    Friend("1", "Emma Wilson"),
    Friend("2", "Liam Chen"),
    Friend("3", "Alex Kim"),
    Friend("4", "Isabella Lopez"),
    Friend("5", "Ethan Brown")
  ]

  function Matcher(query: string): Friend -> bool
  {
    (f: Friend) => IncludesIgnoringCase(f.name, query)
  }

  /** `filteredFriends`. */
  function FilteredFriends(query: string): seq<Friend>
  {
    Filter(Friends, Matcher(query))
  }

  /** The friends listed keep their order, and a friend is listed exactly when the query occurs in the name. */
  lemma FilteredFriendsSpec(query: string, f: Friend)
    ensures IsSubsequence(FilteredFriends(query), Friends)
    ensures f in FilteredFriends(query) <==> f in Friends && IncludesIgnoringCase(f.name, query)
  {
    FilterIsSubsequence(Friends, Matcher(query));
    FilterMembership(Friends, Matcher(query), f);
  }

  /** An empty search box lists all five friends. */
  lemma EmptyQueryListsAllFriends()
    ensures FilteredFriends("") == Friends
    ensures |FilteredFriends("")| == 5
  {
    forall i | 0 <= i < |Friends| ensures Matcher("")(Friends[i]) {
      EmptyQueryMatches(Friends[i].name);
    }
    FilterKeepsAll(Friends, Matcher(""));
  }

  /** "No friends found" replaces the list exactly when no friend's name matches. */
  predicate NoFriendsFound(query: string)
  {
    |FilteredFriends(query)| == 0
  }

  lemma NoFriendsFoundIffNoMatch(query: string)
    ensures NoFriendsFound(query) <==> forall i :: 0 <= i < |Friends| ==> !IncludesIgnoringCase(Friends[i].name, query)
  {
    if !NoFriendsFound(query) {
      var f := FilteredFriends(query)[0];
      FilteredFriendsSpec(query, f);
    }
    forall i | 0 <= i < |Friends| && IncludesIgnoringCase(Friends[i].name, query)
      ensures !NoFriendsFound(query)
    {
      FilteredFriendsSpec(query, Friends[i]);
    }
  }

  const LinkPrefix := "https://tuff.io/post/"

  /** The link of a post. */
  function ShareLink(postId: string): (link: string)
    ensures StartsWith(link, LinkPrefix)
    ensures link[|LinkPrefix|..] == postId
  {
    LinkPrefix + postId
  }

  /** Different posts have different links. */
  lemma ShareLinkInjective(a: string, b: string)
    requires ShareLink(a) == ShareLink(b)
    ensures a == b
  {
    assert a == ShareLink(a)[|LinkPrefix|..];
  }

  /** `copyLink`: the text written to the clipboard, nothing without a post. */
  function CopyLink(post: Option<Post>): (copied: Option<string>)
    ensures copied.Some? <==> post.Some?
    ensures post.Some? ==> copied.value == ShareLink(post.value.id)
  {
    if post.Some? then Some(ShareLink(post.value.id)) else None
  }

  /** `caption.substring(0, 30)` followed by an ellipsis. */
  function CaptionPreview(caption: string): (preview: string)
    ensures |preview| == (if |caption| < 30 then |caption| else 30) + 3
    ensures StartsWith(caption, preview[..|preview| - 3])
    ensures preview[|preview| - 3..] == "..."
  {
    var n := if |caption| < 30 then |caption| else 30;
    caption[..n] + "..."
  }

  /** A caption of at most 30 characters is shown whole. */
  lemma ShortCaptionShownWhole(caption: string)
    requires |caption| <= 30
    ensures CaptionPreview(caption) == caption + "..."
  {
    assert caption[..|caption|] == caption;
  }

  /**
   * The content the component returns for a post: the link its copy button
   * writes (the link text itself is not displayed), the caption preview, the
   * listed friends and whether "No friends found" is shown.
   */
  datatype ShareView = ShareView(copyTarget: string, captionPreview: string, friends: seq<Friend>, noFriendsMessage: bool)

  /**
   * The component's return value: nothing for a null post, else the dialog's
   * content. Whether the dialog is visible (the `isOpen` prop) is not modelled.
   */
  function Render(post: Option<Post>, query: string): (view: Option<ShareView>)
  {
    if post.None? then None
    else Some(ShareView(ShareLink(post.value.id), CaptionPreview(post.value.caption),
                        FilteredFriends(query), NoFriendsFound(query)))
  }

  /** A null post renders nothing and copies nothing; otherwise the copy button writes the post's link. */
  lemma NullPostRendersNothing(post: Option<Post>, query: string)
    ensures Render(post, query).None? <==> post.None?
    ensures Render(post, query).None? <==> CopyLink(post).None?
    ensures post.Some? ==> Some(Render(post, query).value.copyTarget) == CopyLink(post)
    ensures post.Some? ==> (Render(post, query).value.noFriendsMessage <==> Render(post, query).value.friends == [])
  {
  }
}

=== FILE: sqcalculator.dfy ===
/**
 * The Style Quotient calculator page (src/pages/SQCalculatorPage.tsx): the
 * score bands of the result circle, and the three-step page flow around a
 * demo analysis that completes after a delay.
 */
module SQCalculator {
  import opened Wrappers

  // ---------------------------------------------------------------------
  // Score bands of the result circle
  // ---------------------------------------------------------------------

  /** `getScoreColor`. */
  function ScoreColor(score: real): string
  {
    if score >= 90.0 then "text-primary"
    else if score >= 70.0 then "text-tuff-pastel-green"
    else if score >= 50.0 then "text-tuff-pastel-blue"
    else "text-tuff-pastel-peach"
  }

  /** `getScoreLabel`. */
  function ScoreLabel(score: real): string
  {
    if score >= 90.0 then "Fashion Trailblazer"
    else if score >= 70.0 then "Style Star"
    else if score >= 50.0 then "Getting There"
    else "Style Rookie"
  }

  /** Reference reading of both chains: how many of the breakpoints 50, 70 and 90 the score reaches. */
  function Band(score: real): (b: nat)
    ensures b <= 3
  {
    (if score >= 50.0 then 1 else 0) + (if score >= 70.0 then 1 else 0) + (if score >= 90.0 then 1 else 0)
  }

  /** The labels and colours from the lowest band to the highest. */
  const Labels: seq<string> := ["Style Rookie", "Getting There", "Style Star", "Fashion Trailblazer"]
  const Colors: seq<string> := ["text-tuff-pastel-peach", "text-tuff-pastel-blue", "text-tuff-pastel-green", "text-primary"]

  /** Each chain picks the entry of its band. */
  lemma ChainsFollowBand(score: real)
    ensures ScoreLabel(score) == Labels[Band(score)]
    ensures ScoreColor(score) == Colors[Band(score)]
  {
  }

  /** The four labels are different, and so are the four colours. */
  lemma BandEntriesDistinct(i: nat, j: nat)
    requires i < 4 && j < 4 && i != j
    ensures Labels[i] != Labels[j]
    ensures Colors[i] != Colors[j]
  {
    assert |Labels[i]| != |Labels[j]|;
    if {i, j} == {0, 2} {
      assert Colors[0][17] == 'p' && Colors[2][17] == 'g';
    } else {
      assert |Colors[i]| != |Colors[j]|;
    }
  }

  /** Two scores get the same label exactly when they get the same colour. */
  lemma LabelMatchesColor(s: real, t: real)
    ensures ScoreLabel(s) == ScoreLabel(t) <==> ScoreColor(s) == ScoreColor(t)
    ensures ScoreLabel(s) == ScoreLabel(t) <==> Band(s) == Band(t)
  {
    ChainsFollowBand(s);
    ChainsFollowBand(t);
    if Band(s) != Band(t) {
      BandEntriesDistinct(Band(s), Band(t));
    }
  }

  /** A higher score never falls in a lower band. */
  lemma BandMonotone(s: real, t: real)
    requires s <= t
    ensures Band(s) <= Band(t)
  {
  }

  // ---------------------------------------------------------------------
  // The page flow
  // ---------------------------------------------------------------------

  datatype SQResults = SQResults(colorScore: int, trendScore: int, harmonyScore: int, totalScore: int)

  /** The fixed outcome of the demo analysis. */
  const DemoResults := SQResults(85, 72, 91, 83)

  /** The demo total is a "Style Star". */
  lemma DemoIsStyleStar()
    ensures ScoreLabel(DemoResults.totalScore as real) == "Style Star"
    ensures Band(DemoResults.totalScore as real) == 2
  {
  }

  datatype SQState = SQState(step: nat, isAnalyzing: bool, results: Option<SQResults>)

  const InitialSQ := SQState(1, false, None)

  /**
   * The page's inputs: its buttons, each a no-op while it is not rendered or
   * disabled, and the analysis timer, which only fires while one is pending.
   */
  datatype Event = ClickCalculate | ClickBack | ClickAnalyze | AnalysisDone | ClickCalculateAgain

  function Step(st: SQState, ev: Event): SQState
  {
    match ev
    case ClickCalculate =>
      if st.step == 1 then st.(step := 2) else st
    case ClickBack =>
      if st.step == 2 then st.(step := 1) else st
    case ClickAnalyze =>
      // `analyzeSQ`; the button is disabled while an analysis is running
      if st.step == 2 && !st.isAnalyzing then st.(isAnalyzing := true) else st
    case AnalysisDone =>
      // the deferred callback of `analyzeSQ`; going back does not cancel it
      if st.isAnalyzing then SQState(3, false, Some(DemoResults)) else st
    case ClickCalculateAgain =>
      if ResultsShown(st) then st.(step := 1) else st
  }

  /** A sequence of page and timer events; from a valid page every one of them keeps it valid. */
  function Run(st: SQState, evs: seq<Event>): (r: SQState)
    ensures Valid(st) ==> Valid(r)
    decreases |evs|
  {
    if evs == [] then st
    else
      var next := Step(st, evs[0]);
      assert Valid(st) ==> Valid(next) by {
        if Valid(st) {
          StepValid(st, evs[0]);
        }
      }
      Run(next, evs[1..])
  }

  /** The results view is rendered on step 3 once results exist. */
  predicate ResultsShown(st: SQState)
  {
    st.step == 3 && st.results.Some?
  }

  /**
   * The page invariant: the step is 1, 2 or 3; results, once present, are
   * the demo results; step 3 is only reached with results and never while
   * an analysis is running.
   */
  predicate Valid(st: SQState)
  {
    1 <= st.step <= 3 &&
    (st.results.Some? ==> st.results.value == DemoResults) &&
    (st.step == 3 ==> st.results.Some? && !st.isAnalyzing)
  }

  /** The step changes of the code: 1 to 2, 2 to 1, 3 to 1, and to 3 when an analysis completes from 1 or 2. */
  predicate AllowedTransition(from: nat, to: nat)
  {
    from == to ||
    (from == 1 && to == 2) || (from == 2 && to == 1) || (from == 3 && to == 1) ||
    (from == 2 && to == 3) || (from == 1 && to == 3)
  }

  lemma StepValid(st: SQState, ev: Event)
    requires Valid(st)
    ensures Valid(Step(st, ev))
    ensures AllowedTransition(st.step, Step(st, ev).step)
    ensures Step(st, ev).step == 3 && st.step != 3 ==> ev == AnalysisDone
    ensures ResultsShown(Step(st, ev)) <==> Step(st, ev).step == 3
  {
  }

  /** `analyzeSQ` and its completion: the flag is raised, then cleared with the demo results on step 3. */
  lemma AnalyzeThenDone(st: SQState)
    requires Valid(st) && st.step == 2 && !st.isAnalyzing
    ensures Step(st, ClickAnalyze).isAnalyzing
    ensures Step(Step(st, ClickAnalyze), AnalysisDone) == SQState(3, false, Some(DemoResults))
  {
  }

  /** Going back during an analysis does not cancel it: its completion moves step 1 straight to 3. */
  lemma BackDoesNotCancelAnalysis()
    ensures Run(InitialSQ, [ClickCalculate, ClickAnalyze, ClickBack]).step == 1
    ensures Run(InitialSQ, [ClickCalculate, ClickAnalyze, ClickBack, AnalysisDone]) == SQState(3, false, Some(DemoResults))
  {
    var s1 := Step(InitialSQ, ClickCalculate);
    var s2 := Step(s1, ClickAnalyze);
    var s3 := Step(s2, ClickBack);
    var s4 := Step(s3, AnalysisDone);
    assert s3 == SQState(1, true, None);
    assert Run(s4, []) == s4;
    assert Run(s3, [AnalysisDone]) == Run(s4, []);
    assert [ClickBack, AnalysisDone][1..] == [AnalysisDone];
    assert Run(s2, [ClickBack, AnalysisDone]) == Run(s3, [AnalysisDone]);
    assert [ClickAnalyze, ClickBack, AnalysisDone][1..] == [ClickBack, AnalysisDone];
    assert Run(s1, [ClickAnalyze, ClickBack, AnalysisDone]) == Run(s2, [ClickBack, AnalysisDone]);
    assert [ClickCalculate, ClickAnalyze, ClickBack, AnalysisDone][1..] == [ClickAnalyze, ClickBack, AnalysisDone];
    assert Run(s3, []) == s3;
    assert Run(s2, [ClickBack]) == s3;
    assert [ClickAnalyze, ClickBack][1..] == [ClickBack];
    assert Run(s1, [ClickAnalyze, ClickBack]) == s3;
    assert [ClickCalculate, ClickAnalyze, ClickBack][1..] == [ClickAnalyze, ClickBack];
  }

  // ---------------------------------------------------------------------
  // The page component
  // ---------------------------------------------------------------------

  class SQCalculatorPage {
    var step: nat
    var isAnalyzing: bool
    var results: Option<SQResults>

    function State(): SQState
      reads this
    {
      SQState(step, isAnalyzing, results)
    }

    constructor ()
      ensures State() == InitialSQ && Valid(State())
    {
      step := 1;
      isAnalyzing := false;
      results := None;
    }

    /** "Calculate My SQ" on step 1. */
    method Calculate()
      requires Valid(State())
      modifies this
      ensures State() == Step(old(State()), ClickCalculate) && Valid(State())
    {
      if step == 1 {
        step := 2;
      }
    }

    /** "Back to Information" on step 2. */
    method BackToInformation()
      requires Valid(State())
      modifies this
      ensures State() == Step(old(State()), ClickBack) && Valid(State())
    {
      if step == 2 {
        step := 1;
      }
    }

    /** `analyzeSQ`, from the enabled demo-analysis button on step 2. */
    method AnalyzeSQ()
      requires Valid(State())
      modifies this
      ensures State() == Step(old(State()), ClickAnalyze) && Valid(State())
    {
      if step == 2 && !isAnalyzing {
        isAnalyzing := true;
      }
    }

    /** The analysis timer's callback, when an analysis is pending. */
    method CompleteAnalysis()
      requires Valid(State())
      modifies this
      ensures State() == Step(old(State()), AnalysisDone) && Valid(State())
    {
      if isAnalyzing {
        isAnalyzing := false;
        results := Some(DemoResults);
        step := 3;
      }
    }

    /** "Calculate Again" on the results view. */
    method CalculateAgain()
      requires Valid(State())
      modifies this
      ensures State() == Step(old(State()), ClickCalculateAgain) && Valid(State())
    {
      if step == 3 && results.Some? {
        step := 1;
      }
    }
  }
}

=== FILE: text.dfy ===
/**
 * The JavaScript string operations the components rely on: `trim`,
 * `toLowerCase`, `includes` and `startsWith`.
 */
module Text {

  /** ECMAScript WhiteSpace and LineTerminator code points, the set `trim` strips. */
  predicate IsWhitespace(c: char)
  {
    c == '\t' || c == '\n' || c == '\U{000B}' || c == '\U{000C}' || c == '\r' || c == ' ' ||
    c == '\U{00A0}' || c == '\U{1680}' || ('\U{2000}' <= c <= '\U{200A}') ||
    c == '\U{2028}' || c == '\U{2029}' || c == '\U{202F}' || c == '\U{205F}' ||
    c == '\U{3000}' || c == '\U{FEFF}'
  }

  /** `s` with its leading whitespace removed. */
  function TrimStart(s: string): (r: string)
    ensures r == [] || !IsWhitespace(r[0])
    ensures |r| <= |s| && r == s[|s| - |r|..]
    ensures forall i :: 0 <= i < |s| - |r| ==> IsWhitespace(s[i])
  {
    if s != [] && IsWhitespace(s[0]) then TrimStart(s[1..]) else s
  }

  /** `s` with its trailing whitespace removed. */
  function TrimEnd(s: string): (r: string)
    ensures r == [] || !IsWhitespace(r[|r| - 1])
    ensures |r| <= |s| && r == s[..|r|]
    ensures forall i :: |r| <= i < |s| ==> IsWhitespace(s[i])
  {
    if s != [] && IsWhitespace(s[|s| - 1]) then TrimEnd(s[..|s| - 1]) else s
  }

  /** `s.trim()`. */
  function Trim(s: string): string
  {
    TrimEnd(TrimStart(s))
  }

  /** `!s.trim()`: the string is empty after trimming. */
  predicate IsBlank(s: string)
  {
    Trim(s) == ""
  }

  /** A string is blank exactly when every character in it is whitespace. */
  lemma BlankIffAllWhitespace(s: string)
    ensures IsBlank(s) <==> forall i :: 0 <= i < |s| ==> IsWhitespace(s[i])
  {
    TrimStartAllWhitespace(s);
    var t := TrimStart(s);
    if t != [] {
      assert !IsWhitespace(t[0]);
      assert TrimEnd(t) != [] by {
        TrimEndKeepsHead(t);
      }
      assert !IsWhitespace(s[|s| - |t|]);
    }
  }

  lemma {:induction false} TrimStartAllWhitespace(s: string)
    ensures TrimStart(s) == [] <==> forall i :: 0 <= i < |s| ==> IsWhitespace(s[i])
  {
    if s != [] && IsWhitespace(s[0]) {
      TrimStartAllWhitespace(s[1..]);
      assert forall i :: 1 <= i < |s| ==> s[i] == s[1..][i - 1];
    }
  }

  /** Trimming the end of a string that starts with a non-whitespace character leaves that character. */
  lemma {:induction false} TrimEndKeepsHead(s: string)
    requires s != [] && !IsWhitespace(s[0])
    ensures TrimEnd(s) != []
  {
    if IsWhitespace(s[|s| - 1]) {
      TrimEndKeepsHead(s[..|s| - 1]);
    }
  }

  /** ASCII lower-casing of one character. */
  function LowerChar(c: char): (r: char)
    ensures 'A' <= c <= 'Z' ==> 'a' <= r <= 'z' && r as int - c as int == 'a' as int - 'A' as int
    ensures !('A' <= c <= 'Z') ==> r == c
  {
    if 'A' <= c <= 'Z' then (c as int - 'A' as int + 'a' as int) as char else c
  }

  /** `s.toLowerCase()`, restricted to the ASCII letters. */
  function ToLower(s: string): (r: string)
    ensures |r| == |s|
    ensures forall i :: 0 <= i < |s| ==> r[i] == LowerChar(s[i])
    ensures forall i :: 0 <= i < |r| ==> !('A' <= r[i] <= 'Z')
  {
    seq(|s|, i requires 0 <= i < |s| => LowerChar(s[i]))
  }

  /** Lower-casing twice is lower-casing once. */
  lemma ToLowerIdempotent(s: string)
    ensures ToLower(ToLower(s)) == ToLower(s)
  {
  }

  /** `s.startsWith(p)`. */
  predicate StartsWith(s: string, p: string)
  {
    |p| <= |s| && s[..|p|] == p
  }

  /** `k` occurs in `s` starting at position `i`. */
  predicate OccursAt(s: string, k: string, i: int)
  {
    0 <= i && i + |k| <= |s| && s[i..i + |k|] == k
  }

  /** `s.includes(k)`: `k` occurs in `s` at some position. */
  predicate Contains(s: string, k: string)
  {
    exists i :: 0 <= i <= |s| && OccursAt(s, k, i)
  }

  /** `Contains` agrees with a scan that tries each start position in turn. */
  lemma {:induction false} ContainsIffScan(s: string, k: string)
    ensures Contains(s, k) <==> StartsWith(s, k) || (s != [] && Contains(s[1..], k))
  {
    if StartsWith(s, k) {
      assert OccursAt(s, k, 0);
    } else if s != [] {
      forall i | OccursAt(s[1..], k, i) ensures OccursAt(s, k, i + 1) {
        assert s[i + 1..i + 1 + |k|] == s[1..][i..i + |k|];
      }
      forall i | OccursAt(s, k, i) ensures OccursAt(s[1..], k, i - 1) {
        assert i != 0;
        assert s[1..][i - 1..i - 1 + |k|] == s[i..i + |k|];
      }
    }
  }

  /** Every string includes the empty string. */
  lemma ContainsEmpty(s: string)
    ensures Contains(s, "")
  {
    assert OccursAt(s, "", 0);
  }

  /** `name.toLowerCase().includes(query.toLowerCase())`: the query occurs in the name, ignoring case. */
  predicate IncludesIgnoringCase(name: string, query: string)
  {
    Contains(ToLower(name), ToLower(query))
  }

  /** The empty query occurs in every name. */
  lemma EmptyQueryMatches(name: string)
    ensures IncludesIgnoringCase(name, "")
  {
    assert ToLower("") == "";
    ContainsEmpty(ToLower(name));
  }

  /** The case of the query and of the name makes no difference. */
  lemma CaseIgnored(name: string, query: string)
    ensures IncludesIgnoringCase(name, query) <==> IncludesIgnoringCase(ToLower(name), ToLower(query))
  {
    ToLowerIdempotent(name);
    ToLowerIdempotent(query);
  }
}

=== FILE: wrappers.dfy ===
/** The optional value used wherever the source holds `T | null`. */
module Wrappers {
  datatype Option<+T> = None | Some(value: T)
}
